=== FILE: README.md ===
# Sandpolis core, modelled in Dafny

This project models the core of Sandpolis, a remote-administration system.
The model is pure and functional: every Java mutation becomes a function that
returns the updated value; where Java throws after a partial mutation, the
model returns only the exception (see "## Left out"). Collaborators whose code is not part of this model
are function-valued parameters; the clock and random bits are plain values.

Modules:
- `Oids` (`oid.dfy`): object identifiers and their operations (`OidBase`).
- `Documents` (`document.dfy`): state-tree documents and collections and their tag-keyed get-or-create accessors (`Document`, `STCollection`).
- `StateTree` (`state_tree.dfy`): addressing the tree by relative OID (`STCollection.document/attribute/collection(oid)`, `STDocumentContainer.document/get(oid)`).
- `StObjects` (`st_object.dfy`): listener bookkeeping and change-event bubbling (`AbstractSTObject`).
- `Entangled` (`entangled.dfy`): the synchronised collection wrapper (`EntangledCollection`).
- `Cvids` (`cvid.dfy`): the CVID handshake (`CvidResponseHandler`) and the CVID bit layout the CVID tests check.
- `ProtoUtil` (`proto_util.dfy`): outcome and envelope helpers and class-name to field-name conversion (`ProtoUtil`).
- `Users` (`user.dfy`): user accounts (`User`).
- `Groups` (`group_store.dfy`): the group store (`GroupStore`).
- `GroupHandlers` (`group_exe.dfy`): the group request handlers (`GroupExe`).
- `LoginHandlers` (`login_exe.dfy`): the login and logout handlers (`LoginExe`).
- `Installer` (`install_component.dfy`): installable components (`InstallComponent`).
- `Common` and `JavaStrings` hold shared helpers: `Option`, `Result` with Java exceptions as errors, `String.split`, joining, `Integer.valueOf` and ASCII case.

Exceptions are `Err` values of `Result`. Java `null` is `None`. Java's `%` is
modelled with truncating remainder (`StateTree.JavaRem`).

OID traversal throws on a component with the wrong type digit. Following the
code, the model also shows the following:
- The documents created for earlier components stay in the tree when a later component fails.
- `attribute(oid)` and `collection(oid)` on a one-component OID create the document and then throw IllegalStateException from `tail()`.
- `STCollection.collection(oid)` reports "Unacceptable attribute tag".

`User.merge` compares against `ErrorCode.NONE`; `ProtoUtil` and `GroupStore`
compare against `ErrorCode.OK`. Both values exist in the model and they are distinct.

## Model

| member | source | states |
|---|---|---|
| Oids.FromComponents | module/com.sandpolis.core.instance/src/main/java/com/sandpolis/core/instance/state/oid/OidBase.java:38-43 | an empty component array is refused with IllegalArgumentException; otherwise the OID holds exactly the given components and no cached dotted form |
| Oids.Parse | module/com.sandpolis.core.instance/src/main/java/com/sandpolis/core/instance/state/oid/OidBase.java:33-36 | parsing succeeds exactly when splitting at `.` gives at least one piece and every piece is a 32-bit decimal integer; each component is the value of its piece; a bad piece throws NumberFormatException and an empty split IllegalArgumentException("Empty OID"); the input string is remembered as the dotted form |
| Oids.ParseRefusesEmptyForms | module/com.sandpolis.core.instance/src/main/java/com/sandpolis/core/instance/state/oid/OidBase.java:33-43 | the empty string throws NumberFormatException and a lone dot throws IllegalArgumentException("Empty OID") |
| Oids.ToString | module/com.sandpolis.core.instance/src/main/java/com/sandpolis/core/instance/state/oid/OidBase.java:50-57 | the cached dotted form when there is one; otherwise exactly the decimal forms of the components joined by single dots: cutting the string at every `.` gives them back in order, with no empty piece at either end |
| Oids.ParseOfToString | module/com.sandpolis.core.instance/src/main/java/com/sandpolis/core/instance/state/oid/OidBase.java:33-57 | printing an OID of 32-bit components and parsing the text gives the same components back |
| Oids.ToStringOfParse | module/com.sandpolis.core.instance/src/main/java/com/sandpolis/core/instance/state/oid/OidBase.java:33-57 | an OID built from a string prints as exactly that string |
| Oids.Equals | module/com.sandpolis.core.instance/src/main/java/com/sandpolis/core/instance/state/oid/OidBase.java:59-65 | two OIDs are equal exactly when their component arrays are, whatever their cached dotted forms |
| Oids.Relativize | module/com.sandpolis.core.instance/src/main/java/com/sandpolis/core/instance/state/oid/OidBase.java:72-81 | a null base gives the same components; otherwise the call succeeds exactly when the OID lies strictly below the base, and base followed by result is the OID |
| Oids.RelativizeChild | module/com.sandpolis.core.instance/src/main/java/com/sandpolis/core/instance/state/oid/OidBase.java:72-81 | relativizing `o.child(c)` against `o` gives the single component `c` |
| Oids.Resolve | module/com.sandpolis.core.instance/src/main/java/com/sandpolis/core/instance/state/oid/OidBase.java:83-100 | a concrete OID is refused with IllegalStateException; otherwise the result has the same length |
| Oids.ResolveFillsZerosInOrder | module/com.sandpolis.core.instance/src/main/java/com/sandpolis/core/instance/state/oid/OidBase.java:87-99 | for any tags, nonzero components are kept, the k-th zero from the left takes the k-th nonzero tag, and zeros beyond the last nonzero tag stay zero |
| Oids.FillFromDropsZeroTags | module/com.sandpolis.core.instance/src/main/java/com/sandpolis/core/instance/state/oid/OidBase.java:89-97 | a zero tag is written into a slot that already holds zero and the scan does not move past it, so the loop with any tags gives what it gives with the zero tags left out |
| Oids.Parent | module/com.sandpolis.core.instance/src/main/java/com/sandpolis/core/instance/state/oid/OidBase.java:102-107 | a single-component OID has no parent (null); otherwise the parent is the head one component shorter |
| Oids.ParentOfChild | module/com.sandpolis.core.instance/src/main/java/com/sandpolis/core/instance/state/oid/OidBase.java:102-129 | the parent of `o.child(c)` has the components of `o` |
| Oids.Head | module/com.sandpolis.core.instance/src/main/java/com/sandpolis/core/instance/state/oid/OidBase.java:109-115 | succeeds exactly for 0 < n <= size, with the first n components; otherwise IllegalArgumentException |
| Oids.Tail | module/com.sandpolis.core.instance/src/main/java/com/sandpolis/core/instance/state/oid/OidBase.java:117-122 | succeeds exactly for more than one component, and first component followed by tail is the OID; otherwise IllegalStateException |
| Oids.TailOfChild | module/com.sandpolis.core.instance/src/main/java/com/sandpolis/core/instance/state/oid/OidBase.java:117-129 | the tail of `o.child(c)` is the tail of `o` extended by `c` |
| Oids.Child | module/com.sandpolis.core.instance/src/main/java/com/sandpolis/core/instance/state/oid/OidBase.java:124-129 | the child is one component longer, ends with `c`, and its head of the old length is `o` |
| Documents.NewDocument | module/com.sandpolis.core.instance/src/main/java/com/sandpolis/core/instance/data/Document.java:51-61 | both constructors give a document with no sub-documents, collections or attributes, whatever the parent |
| Documents.AttributeOf | module/com.sandpolis.core.instance/src/main/java/com/sandpolis/core/instance/data/Document.java:67-75 | a bound non-null attribute is returned unchanged; otherwise the tag is bound to null and null is returned; no other tag or map changes |
| Documents.AttributeNeverCreates | module/com.sandpolis.core.instance/src/main/java/com/sandpolis/core/instance/data/Document.java:67-75 | the set of tags bound to an actual attribute is the same before and after `attribute(tag)` |
| Documents.DocumentChild | module/com.sandpolis.core.instance/src/main/java/com/sandpolis/core/instance/data/Document.java:77-84 | `document(tag)` returns the bound sub-document, or binds and returns a new empty one; only that tag changes |
| Documents.DocumentChildIdempotent | module/com.sandpolis.core.instance/src/main/java/com/sandpolis/core/instance/data/Document.java:77-84 | a second `document(tag)` returns the same child and changes nothing |
| Documents.CollectionChild | module/com.sandpolis.core.instance/src/main/java/com/sandpolis/core/instance/data/Document.java:86-93 | `collection(tag)` returns the bound collection, or binds and returns a new empty one |
| Documents.CollectionChildIdempotent | module/com.sandpolis.core.instance/src/main/java/com/sandpolis/core/instance/data/Document.java:86-93 | a second `collection(tag)` returns the same collection and changes nothing |
| Documents.AccessorsTouchOnlyTheirTag | module/com.sandpolis.core.instance/src/main/java/com/sandpolis/core/instance/data/Document.java:77-93 | each get-or-create accessor changes only its own map, and in it only the given tag |
| Documents.Lookup | module/com.sandpolis.core.instance/src/main/java/com/sandpolis/core/instance/state/st/STDocumentContainer.java:60-67 | `getDocument(tag)` is null exactly when the tag is unbound, and otherwise the bound document; a collection's `getDocument` is the same lookup |
| Documents.DocumentChildThenGet | module/com.sandpolis.core.instance/src/main/java/com/sandpolis/core/instance/state/st/STDocumentContainer.java:15-67 | after `document(tag)` the lookup finds the returned child; when the lookup finds a child, `document(tag)` returns it and changes nothing |
| Documents.CollectionDocument | module/com.sandpolis.core.instance/src/main/java/com/sandpolis/core/instance/state/STCollection.java:82-88 | a collection's `document(tag)` never returns null: the bound document, or a new empty one bound first |
| Documents.CollectionDocumentIdempotent | module/com.sandpolis.core.instance/src/main/java/com/sandpolis/core/instance/state/STCollection.java:82-88 | a second `document(tag)` on a collection returns the same document and changes nothing |
| Documents.CollectionDocumentThenGet | module/com.sandpolis.core.instance/src/main/java/com/sandpolis/core/instance/state/STCollection.java:82-120 | get-or-create and lookup on a collection agree, as for documents |
| StateTree.JavaRem | module/com.sandpolis.core.instance/src/main/java/com/sandpolis/core/instance/state/STCollection.java:94 | Java's rule for `first % 10`: the remainder differs from the dividend by a multiple of the divisor, lies strictly between minus and plus the divisor, and is never of the opposite sign to the dividend |
| StateTree.CollectionRoute | module/com.sandpolis.core.instance/src/main/java/com/sandpolis/core/instance/state/STCollection.java:90-104 | a collection lookup by OID visits a prefix of the OID's components, alternating legally between documents and collections; it fails with no step taken for a non-concrete OID or a first tag without the document suffix, takes the single step `document(first)` for a one-component OID, and succeeds only after visiting every component |
| StateTree.ContainerRoute | module/com.sandpolis.core.instance/src/main/java/com/sandpolis/core/instance/state/st/STDocumentContainer.java:23-45 | a container lookup throws GenericOidException for a non-concrete OID; a one-component OID succeeds exactly when its type is document; a longer OID whose first component is neither a document nor, for collection containers, a collection fails before any step |
| StateTree.CollectionDelegateRoute | module/com.sandpolis.core.instance/src/main/java/com/sandpolis/core/instance/state/STCollection.java:56-78 | `attribute(oid)` and `collection(oid)` check concreteness and the document suffix, then call `document(first)`, and continue with the tail only when there is one; a one-component OID fails after the document was created |
| StateTree.CollectionDocumentByOid | module/com.sandpolis.core.instance/src/main/java/com/sandpolis/core/instance/state/STCollection.java:90-104 | `document(oid)` on a collection fails exactly when its route fails, with the route's exception; a non-concrete OID or a first tag without the document suffix changes nothing; no tag is ever unbound, and on success the first component is bound |
| StateTree.ContainerDocumentByOid | module/com.sandpolis.core.instance/src/main/java/com/sandpolis/core/instance/state/st/STDocumentContainer.java:23-45 | `document(oid)` on a container fails exactly when its route fails, with the route's exception; a non-concrete OID throws GenericOidException and changes nothing; a one-component OID succeeds exactly for a document type; no tag is unbound, attributes are untouched, and on success the first component is bound |
| StateTree.ContainerGet | module/com.sandpolis.core.instance/src/main/java/com/sandpolis/core/instance/state/st/STDocumentContainer.java:56-58 | `get(oid)` is `document(oid)`: a non-concrete OID throws GenericOidException and changes nothing |
| StateTree.WalkIdempotent | module/com.sandpolis.core.instance/src/main/java/com/sandpolis/core/instance/state/st/STDocumentContainer.java:23-45 | performing the same get-or-create steps a second time changes nothing and reaches the same node |
| StateTree.WalkKeepsTags | module/com.sandpolis.core.instance/src/main/java/com/sandpolis/core/instance/data/Document.java:77-93 | a lookup by OID only ever adds: every tag bound at the start stays bound and the attributes are untouched |
| StateTree.CollectionDocumentSingle | module/com.sandpolis.core.instance/src/main/java/com/sandpolis/core/instance/state/STCollection.java:96-97 | for a one-component OID with the document suffix the lookup is `document(first)` |
| StateTree.CollectionDocumentRecursion | module/com.sandpolis.core.instance/src/main/java/com/sandpolis/core/instance/state/STCollection.java:98-99 | for a longer OID the lookup is `document(first).document(tail)` |
| StateTree.ContainerDocumentRecursion | module/com.sandpolis.core.instance/src/main/java/com/sandpolis/core/instance/state/st/STDocumentContainer.java:35-36 | a document component recurses with `document(first).document(tail)` |
| StateTree.ContainerCollectionRecursion | module/com.sandpolis.core.instance/src/main/java/com/sandpolis/core/instance/state/st/STDocumentContainer.java:37-40 | a collection component of a collection container recurses with `collection(first).document(tail)` |
| StateTree.PlainContainerRefusesCollection | module/com.sandpolis.core.instance/src/main/java/com/sandpolis/core/instance/state/st/STDocumentContainer.java:37-43 | a container that holds no collections refuses a collection component with IllegalArgumentException and creates nothing |
| StateTree.CollectionDocumentByOidIdempotent | module/com.sandpolis.core.instance/src/main/java/com/sandpolis/core/instance/state/STCollection.java:90-104 | looking up the same OID twice gives the same outcome and the second lookup changes nothing |
| StateTree.SuccessfulRouteVisitsEveryComponent | module/com.sandpolis.core.instance/src/main/java/com/sandpolis/core/instance/state/st/STDocumentContainer.java:23-45 | a successful lookup visits exactly the OID's components, in order |
| StObjects.AddListener | module/com.sandpolis.core.instance/src/main/java/com/sandpolis/core/instance/state/st/AbstractSTObject.java:53-60 | after `addListener` the bus exists and the counter is one higher; bus-iff-listeners consistency is kept |
| StObjects.RemoveListener | module/com.sandpolis.core.instance/src/main/java/com/sandpolis/core/instance/state/st/AbstractSTObject.java:71-80 | `removeListener` counts down only when there is a bus, and the bus remains exactly when it was there and the counter is not zero |
| StObjects.RemoveUndoesAdd | module/com.sandpolis.core.instance/src/main/java/com/sandpolis/core/instance/state/st/AbstractSTObject.java:53-80 | removing the listener just added restores the previous bookkeeping |
| StObjects.ConsistentAfterAnyOps | module/com.sandpolis.core.instance/src/main/java/com/sandpolis/core/instance/state/st/AbstractSTObject.java:28-38 | after any sequence of adds and removes the object holds a bus exactly while its counter is positive |
| StObjects.CounterCountsListeners | module/com.sandpolis.core.instance/src/main/java/com/sandpolis/core/instance/state/st/AbstractSTObject.java:35-38 | when every remove follows a matching add, the counter is the number of adds minus the number of removes |
| StObjects.ObjectOid | module/com.sandpolis.core.instance/src/main/java/com/sandpolis/core/instance/state/st/AbstractSTObject.java:44-51 | the OID has one component per object from the root down to this one, and its last component is the object's own id |
| StObjects.ParentOidIsPrefix | module/com.sandpolis.core.instance/src/main/java/com/sandpolis/core/instance/state/st/AbstractSTObject.java:44-51 | a child's OID is its parent's OID followed by the child's id, so the parent's OID is a proper prefix of it |
| StObjects.Fire | module/com.sandpolis.core.instance/src/main/java/com/sandpolis/core/instance/state/st/AbstractSTObject.java:82-97 | at most one post per object from the source up to the root, each carrying the fired event |
| StObjects.FireClimbsTowardsRoot | module/com.sandpolis.core.instance/src/main/java/com/sandpolis/core/instance/state/st/AbstractSTObject.java:82-193 | every post targets the firing object or an ancestor, strictly climbing towards the root, with the object's own bus first exactly when it has one |
| StObjects.FireReachesEveryListeningAncestor | module/com.sandpolis.core.instance/src/main/java/com/sandpolis/core/instance/state/st/AbstractSTObject.java:82-193 | every object with a bus on the way to the root receives exactly one post, and no other object does |
| StObjects.SilentChainPostsNothing | module/com.sandpolis.core.instance/src/main/java/com/sandpolis/core/instance/state/st/AbstractSTObject.java:28-33 | without a bus anywhere on the way to the root, no event is generated |
| Entangled.StartStreams | module/com.sandpolis.core.net/src/main/java/com/sandpolis/core/net/state/EntangledCollection.java:41-62 | a null direction throws NullPointerException and an unrecognised one IllegalArgumentException; bidirectional starts two streams, upstream and downstream one |
| Entangled.Entangle | module/com.sandpolis.core.net/src/main/java/com/sandpolis/core/net/state/EntangledCollection.java:34-63 | null is refused, an already entangled collection is refused with IllegalArgumentException, and otherwise the wrapper holds the collection and the direction's streams |
| Entangled.OneWayRolesAreComplementary | module/com.sandpolis.core.net/src/main/java/com/sandpolis/core/net/state/EntangledCollection.java:46-59 | for upstream and downstream, initiator and responder start opposite ends; upstream sends from the initiator |
| Entangled.StreamsPairUp | module/com.sandpolis.core.net/src/main/java/com/sandpolis/core/net/state/EntangledCollection.java:41-59 | for every recognised direction the two sides together start as many sources as sinks |
| Entangled.NeverNested | module/com.sandpolis.core.net/src/main/java/com/sandpolis/core/net/state/EntangledCollection.java:37-38 | wrapping an entangled collection again always fails |
| Entangled.EntangledPerform | module/com.sandpolis.core.net/src/main/java/com/sandpolis/core/net/state/EntangledCollection.java:65-150 | forwarding an operation never changes the wrapper's streams |
| Entangled.EntangledIsTransparent | module/com.sandpolis.core.net/src/main/java/com/sandpolis/core/net/state/EntangledCollection.java:65-150 | any sequence of operations on the wrapper gives the replies and the collection state the plain collection would give |
| Entangled.ForwardedLookups | module/com.sandpolis.core.net/src/main/java/com/sandpolis/core/net/state/EntangledCollection.java:77-145 | forwarded `document` never returns null, `getDocument` is null exactly for unbound tags, `size` and `oid` are the collection's, `remove(document)` unbinds exactly that document |
| Cvids.ChannelRead | module/com.sandpolis.core.net/src/main/java/com/sandpolis/core/net/handler/cvid/CvidResponseHandler.java:48-71 | the handler removes itself; a request that is missing, has an empty UUID, an unrecognised instance, the SERVER instance or an unrecognised flavor only signals a failed handshake; any other request writes the response, records instance, CVID and UUID on the channel and signals success with the CVID |
| Cvids.RejectionCausesFailedHandshake | module/com.sandpolis.core.net/src/main/java/com/sandpolis/core/net/handler/cvid/CvidResponseHandler.java:55-59 | each of the five rejection causes has the same effect: nothing is written, the channel's instance, CVID and UUID are left alone, and one completion event without a CVID is signalled |
| Cvids.AcceptedRequestIsAnswered | module/com.sandpolis.core.net/src/main/java/com/sandpolis/core/net/handler/cvid/CvidResponseHandler.java:55-70 | a request with none of the rejection causes gets exactly one response, the channel records its instance, UUID and a CVID, and the completion event carries that CVID |
| Cvids.HandlerRunsOnce | module/com.sandpolis.core.net/src/main/java/com/sandpolis/core/net/handler/cvid/CvidResponseHandler.java:52-53 | after the first message the handler is gone: a second message changes nothing, so exactly one completion event and at most one response |
| Cvids.AcceptedCvidDecodes | module/com.sandpolis.core.net/src/main/java/com/sandpolis/core/net/handler/cvid/CvidResponseHandler.java:60-69 | when the random part is nonzero, an accepted request from a defined instance and flavor gets a positive CVID that decodes to the instance and flavor it asked for |
| Cvids.GeneratedCvidDecodes | module/com.sandpolis.core.net/src/test/java/com/sandpolis/core/net/util/CvidUtilTest.java:35-51 | for defined instances and flavors and a nonzero random part the CVID is positive, below 2^31, and extracts back to its instance and flavor |
| Cvids.ExtractPack | module/com.sandpolis.core.net/src/test/java/com/sandpolis/core/net/util/CvidUtilTest.java:44-47 | extracting the instance, flavor and random fields inverts packing |
| Cvids.PackRange | module/com.sandpolis.core.net/src/test/java/com/sandpolis/core/net/util/CvidUtilTest.java:17-33 | a packed CVID is a non-negative 32-bit int, positive exactly when some field is nonzero |
| ProtoUtil.Begin | module/com.sandpolis.core.instance/src/main/java/com/sandpolis/core/instance/util/ProtoUtil.java:51-53 | a new outcome that is the default message with only the time set, to the clock reading; not yet a success and carrying no error |
| ProtoUtil.BeginAction | module/com.sandpolis.core.instance/src/main/java/com/sandpolis/core/instance/util/ProtoUtil.java:62-64 | a null action throws NullPointerException; otherwise only the action and start time are set |
| ProtoUtil.Success | module/com.sandpolis.core.instance/src/main/java/com/sandpolis/core/instance/util/ProtoUtil.java:72-74 | result true and the time becomes the elapsed time; nothing else changes |
| ProtoUtil.SuccessComment | module/com.sandpolis.core.instance/src/main/java/com/sandpolis/core/instance/util/ProtoUtil.java:83-86 | a null comment throws; otherwise success with the comment, nothing else changed |
| ProtoUtil.FailureComment | module/com.sandpolis.core.instance/src/main/java/com/sandpolis/core/instance/util/ProtoUtil.java:95-97 | a null comment throws; otherwise failure with the comment and the time cleared |
| ProtoUtil.FailureCause | module/com.sandpolis.core.instance/src/main/java/com/sandpolis/core/instance/util/ProtoUtil.java:106-117 | a null cause throws IllegalArgumentException; otherwise the stack trace becomes the exception text of a failure |
| ProtoUtil.Failure | module/com.sandpolis.core.instance/src/main/java/com/sandpolis/core/instance/util/ProtoUtil.java:125-127 | result false and the time cleared; nothing else changes |
| ProtoUtil.FailureCode | module/com.sandpolis.core.instance/src/main/java/com/sandpolis/core/instance/util/ProtoUtil.java:136-138 | result false, the elapsed time and the error code; nothing else changes |
| ProtoUtil.FailureOnlyCode | module/com.sandpolis.core.instance/src/main/java/com/sandpolis/core/instance/util/ProtoUtil.java:140-142 | a fresh outcome with only result false and the error code |
| ProtoUtil.Complete | module/com.sandpolis.core.instance/src/main/java/com/sandpolis/core/instance/util/ProtoUtil.java:150-152 | only the time changes, to the elapsed time |
| ProtoUtil.CompleteCode | module/com.sandpolis.core.instance/src/main/java/com/sandpolis/core/instance/util/ProtoUtil.java:161-163 | success exactly for OK, otherwise a failure carrying the code; the time is the elapsed time either way |
| ProtoUtil.ElapsedTime | module/com.sandpolis.core.instance/src/main/java/com/sandpolis/core/instance/util/ProtoUtil.java:51-74 | an outcome begun at `start` and completed at `now` records `now - start` |
| ProtoUtil.Rs | module/com.sandpolis.core.instance/src/main/java/com/sandpolis/core/instance/util/ProtoUtil.java:180-182 | a response with only the sequence ID set |
| ProtoUtil.RsFor | module/com.sandpolis.core.instance/src/main/java/com/sandpolis/core/instance/util/ProtoUtil.java:190-197 | the response keeps the request's ID and swaps its sender and recipient |
| ProtoUtil.RsForInvolution | module/com.sandpolis.core.instance/src/main/java/com/sandpolis/core/instance/util/ProtoUtil.java:190-197 | answering an answer gives back the original envelope |
| ProtoUtil.MessageClassToFieldName | module/com.sandpolis.core.instance/src/main/java/com/sandpolis/core/instance/util/ProtoUtil.java:303-309 | names shorter than three characters throw IndexOutOfBoundsException, a name without `_` at index 2 fails the argument check, and the field name has no capitals and is never shorter than the class name |
| ProtoUtil.CamelToUnderscoreShape | module/com.sandpolis.core.instance/src/main/java/com/sandpolis/core/instance/util/ProtoUtil.java:307-308 | the UpperCamel to lower_underscore conversion leaves no capital letter and never shortens its input |
| ProtoUtil.CamelTwoWords | module/com.sandpolis.core.instance/src/main/java/com/sandpolis/core/instance/util/ProtoUtil.java:308 | two capitalised words become the two lower-cased words joined by `_` |
| ProtoUtil.CamelRoundTrip | module/com.sandpolis.core.instance/src/main/java/com/sandpolis/core/instance/util/ProtoUtil.java:308 | an UpperCamel word sequence without underscores survives conversion to lower_underscore and back |
| ProtoUtil.FieldNameRoundTrip | module/com.sandpolis.core.instance/src/main/java/com/sandpolis/core/instance/util/ProtoUtil.java:296-309 | class names of the form `XX_UpperCamel` can be recovered from their field names |
| ProtoUtil.ExampleFieldName | module/com.sandpolis.core.instance/src/main/java/com/sandpolis/core/instance/util/ProtoUtil.java:296-298 | `RQ_ExampleMessage` gives `rq_example_message`, as documented |
| Users.Merge | com.sandpolis.server/src/main/java/com/sandpolis/server/store/user/User.java:171-194 | a validation code other than NONE is returned with nothing changed; otherwise the email, expiration and creation time present in the delta replace the account's, and id, username, hash and CVID never change |
| Users.MergeIdempotent | com.sandpolis.server/src/main/java/com/sandpolis/server/store/user/User.java:171-194 | merging the same accepted delta twice has the effect of merging it once |
| Users.Extract | com.sandpolis.server/src/main/java/com/sandpolis/server/store/user/User.java:196-203 | a null username or email throws NullPointerException; otherwise the message carries username, email, expiration and creation time |
| Users.MergeOfExtract | com.sandpolis.server/src/main/java/com/sandpolis/server/store/user/User.java:171-203 | merging an account's own extraction into an account with the same identity yields the account itself |
| Users.NewUser | com.sandpolis.server/src/main/java/com/sandpolis/server/store/user/User.java:108-111 | the constructor succeeds exactly when the configuration validates to NONE, and throws IllegalArgumentException otherwise |
| Users.NewUserTakesEmailAndExpiration | com.sandpolis.server/src/main/java/com/sandpolis/server/store/user/User.java:108-111 | a new account takes the configured email and expiration, and no username, hash or creation time |
| Groups.Get | com.sandpolis.server.vanilla/src/main/java/com/sandpolis/server/vanilla/store/group/GroupStore.java:130 | `get(id)` finds a stored group with that ID, and is empty exactly when no stored group has it |
| Groups.GetFindsStored | com.sandpolis.server.vanilla/src/main/java/com/sandpolis/server/vanilla/store/group/GroupStore.java:130 | with one group per ID, `get` returns the group stored under the ID |
| Groups.AddGroup | com.sandpolis.server.vanilla/src/main/java/com/sandpolis/server/vanilla/store/group/GroupStore.java:82-87 | an ID already in the store is refused with IllegalArgumentException("ID conflict"); otherwise the group is appended and IDs stay unique |
| Groups.AddThenGet | com.sandpolis.server.vanilla/src/main/java/com/sandpolis/server/vanilla/store/group/GroupStore.java:82-87 | a group just added is what `get` returns for its ID |
| Groups.AddConfig | com.sandpolis.server.vanilla/src/main/java/com/sandpolis/server/vanilla/store/group/GroupStore.java:60-75 | null, invalid and incomplete configurations are refused in that order before the store is consulted; otherwise the built group is added |
| Groups.Remove | com.sandpolis.server.vanilla/src/main/java/com/sandpolis/server/vanilla/exe/GroupExe.java:63 | removing an ID drops exactly the groups stored under it |
| Groups.RemoveAbsent | com.sandpolis.server.vanilla/src/main/java/com/sandpolis/server/vanilla/exe/GroupExe.java:63 | removing an absent ID changes nothing |
| Groups.Select | com.sandpolis.server.vanilla/src/main/java/com/sandpolis/server/vanilla/store/group/GroupStore.java:95-120 | the query keeps exactly the matching groups, in iteration order |
| Groups.GetMembership | com.sandpolis.server.vanilla/src/main/java/com/sandpolis/server/vanilla/store/group/GroupStore.java:95-98 | exactly the groups the user owns or is a member of; a null user throws as soon as there is a group to test |
| Groups.GetUnauthGroups | com.sandpolis.server.vanilla/src/main/java/com/sandpolis/server/vanilla/store/group/GroupStore.java:105-108 | exactly the groups with neither keys nor passwords |
| Groups.GetByPassword | com.sandpolis.server.vanilla/src/main/java/com/sandpolis/server/vanilla/store/group/GroupStore.java:116-120 | exactly the groups with a password mechanism holding the password; a null password matches none |
| Groups.Delta | com.sandpolis.server.vanilla/src/main/java/com/sandpolis/server/vanilla/store/group/GroupStore.java:129-135 | an unknown ID gives UNKNOWN_GROUP with nothing changed; otherwise the group merges the delta in place and its code is returned, other groups untouched |
| Groups.DeltaTouchesOnlyItsGroup | com.sandpolis.server.vanilla/src/main/java/com/sandpolis/server/vanilla/store/group/GroupStore.java:129-135 | a delta leaves every group under another ID as it was |
| Groups.Init | com.sandpolis.server.vanilla/src/main/java/com/sandpolis/server/vanilla/store/group/GroupStore.java:138-145 | the groups present before are kept as a prefix and at most one group is added per default; the loop ends with an exception exactly when it added fewer groups than there are defaults |
| Groups.InitAddsBuilt | com.sandpolis.server.vanilla/src/main/java/com/sandpolis/server/vanilla/store/group/GroupStore.java:138-145 | every group `init` added is the one built from the default at the same position, and that default was not null: the defaults are added in order |
| Groups.InitKeepsUniqueIds | com.sandpolis.server.vanilla/src/main/java/com/sandpolis/server/vanilla/store/group/GroupStore.java:138-145 | when the stored IDs are unique before `init`, they are still unique after it |
| GroupHandlers.OwnershipWitnessed | com.sandpolis.server.vanilla/src/main/java/com/sandpolis/server/vanilla/exe/GroupExe.java:88-94 | an ID no stored group has is never owned; ownership is witnessed by a stored group with that ID whose owner's CVID is the peer's |
| GroupHandlers.OwnershipMeansOwnedGroup | com.sandpolis.server.vanilla/src/main/java/com/sandpolis/server/vanilla/exe/GroupExe.java:88-94 | ownership holds exactly when a group with that ID exists and its owner's CVID is the peer's |
| GroupHandlers.RqAddGroup | com.sandpolis.server.vanilla/src/main/java/com/sandpolis/server/vanilla/exe/GroupExe.java:46-54 | the request's config (the default instance when unset) is added; a refused config leaves the handler as an exception; success reports the elapsed time |
| GroupHandlers.AddedGroupIsFound | com.sandpolis.server.vanilla/src/main/java/com/sandpolis/server/vanilla/exe/GroupExe.java:46-54 | after a successful add request, `get` finds the group built from the request's config under its ID, and IDs stay unique |
| GroupHandlers.RqRemoveGroup | com.sandpolis.server.vanilla/src/main/java/com/sandpolis/server/vanilla/exe/GroupExe.java:56-65 | a peer that does not own the group gets ACCESS_DENIED and nothing is removed; otherwise the group is removed and success reported |
| GroupHandlers.RemovalNeedsOwnership | com.sandpolis.server.vanilla/src/main/java/com/sandpolis/server/vanilla/exe/GroupExe.java:56-65 | a removal that changes the store was asked for by the owner of a group that was there, and only that ID is gone |
| GroupHandlers.RqGroupDeltaAsWritten | com.sandpolis.server.vanilla/src/main/java/com/sandpolis/server/vanilla/exe/GroupExe.java:78-86 | ownership is checked for the delta's config ID, and the delta is applied to the request's ID |
| GroupHandlers.AsWrittenChangesForeignGroup | com.sandpolis.server.vanilla/src/main/java/com/sandpolis/server/vanilla/exe/GroupExe.java:81-85 | a peer owning group `a` changes group `b` owned by someone else, while the corrected handler refuses the same request |
| GroupHandlers.RqGroupDelta | com.sandpolis.server.vanilla/src/main/java/com/sandpolis/server/vanilla/exe/GroupExe.java:78-94 | corrected handler: ownership is checked for the group the delta is applied to |
| GroupHandlers.DeltaChangesOnlyOwnedGroups | com.sandpolis.server.vanilla/src/main/java/com/sandpolis/server/vanilla/exe/GroupExe.java:78-94 | with the corrected check, every group a delta request changes is owned by the requesting peer |
| LoginHandlers.Verdict | com.sandpolis.server.vanilla/src/main/java/com/sandpolis/server/vanilla/exe/LoginExe.java:67-90 | INVALID_USERNAME exactly for a malformed username; OK exactly when the account exists, has not expired and the password matches; ACCESS_DENIED otherwise |
| LoginHandlers.RqLogin | com.sandpolis.server.vanilla/src/main/java/com/sandpolis/server/vanilla/exe/LoginExe.java:62-111 | a failing check returns the failure with its code and changes nothing; an accepted login authenticates the connection, updates only address and time on an existing profile, creates the profile from the peer's UUID, instance and flavor when there is none, and leaves other profiles untouched |
| LoginHandlers.LoginAuthenticatesIffAccepted | com.sandpolis.server.vanilla/src/main/java/com/sandpolis/server/vanilla/exe/LoginExe.java:92-95 | a connection becomes authenticated, and the outcome reports success, exactly when every check passes |
| LoginHandlers.ProfileCreatedOnce | com.sandpolis.server.vanilla/src/main/java/com/sandpolis/server/vanilla/exe/LoginExe.java:96-108 | the first accepted login creates the profile from that peer's identity; a later one keeps it and only updates address and time |
| LoginHandlers.RqLogout | com.sandpolis.server.vanilla/src/main/java/com/sandpolis/server/vanilla/exe/LoginExe.java:54-59 | logout closes the connection and changes nothing else |
| Installer.NewComponent | com.sandpolis.installer/src/main/java/com/sandpolis/installer/InstallComponent.java:46-50 | the coordinate is stored unchanged, the file base is its second `:` field, and the ID is `com.` followed by the file base with dashes turned to dots, so it contains no dash; too few fields throw |
| Installer.FileBaseIsArtifact | com.sandpolis.installer/src/main/java/com/sandpolis/installer/InstallComponent.java:49 | for a `group:artifact:version` coordinate the file base is the artifact |
| Installer.ConstantIdsAreDocumentedModules | com.sandpolis.installer/src/main/java/com/sandpolis/installer/InstallComponent.java:22-40 | each constant's ID is the module name its documentation gives |

## Left out

- OID interfaces: `isConcrete` and `isChildOf` are defined in the `Oid` interface, which is not part of this model. They are taken as "no component is zero" and "strict prefix".
- OidBase: `hashCode` is not modelled. The cached dotted form that `toString` stores is returned, but the cache write itself is not modelled.
- Oids.Parse: `Integer.valueOf` goes through `Character.digit`, which accepts every Unicode decimal digit. The model accepts only ASCII `0`-`9`, so a string of Arabic-Indic digits such as "١.٢" parses in Java but is refused here.
- OidBase: the text of exception messages that print OIDs is not modelled.
- OID type digits: the value of `OidBase.SUFFIX_DOCUMENT` and `OidUtil.getOidType` are not part of this model. They are a `Schema` parameter.
- Documents.CollectionDocument: `STCollection.document(int)` and `STDocumentContainer.document(long)` are abstract. Their only promise is that they never return null. The model takes both to be get-or-create, binding a new empty document under an unbound tag as `Document.document(tag)` does. `Documents.CollectionDocumentIdempotent`, `Documents.CollectionDocumentThenGet`, `StateTree.WalkIdempotent`, `StateTree.CollectionDocumentSingle`, `StateTree.CollectionDocumentRecursion`, `StateTree.ContainerDocumentRecursion` and `StateTree.CollectionDocumentByOidIdempotent` depend on this reading.
- StateTree.CollectionRoute: `STCollection` (package `state`) and `STDocumentContainer` (package `state.st`) use different `STDocument` types. The class of the document that `document(first)` returns is not part of this model. The model takes it to be a document container that is also a collection container, so `document(first).document(tail)` continues with `StateTree.ContainerRoute`. Likewise, a collection reached from a container continues with the `% 10` lookup of `STCollection`. `StateTree.CollectionDocumentRecursion`, `StateTree.ContainerCollectionRecursion` and `StateTree.WalkIdempotent` rest on this choice.
- STCollection and STDocumentContainer: `collectionList`, `documents`, `forEachDocument`, `getMetadata` and `newDocument` are not modelled. They return views or metadata outside the tree contents.
- StObjects: Guava's `EventBus` registration and delivery are not modelled. Posts are listed in the order they are submitted to the pool. Delivery is asynchronous, so neither its order nor its timing is modelled.
- StObjects.RemoveListener: unregistering a listener that was never registered makes Guava throw IllegalArgumentException; the model counts down regardless.
- Entangled: the stream machinery behind `startSource` and `startSink` is not modelled; only which streams are started is recorded.
- Entangled: `collectionList`, `documents`, `getMetadata`, `newDocument`, `merge` and `snapshot` are forwarded in the Java too, but are not modelled, for the same reason as above.
- Entangled: `remove(document)` compares documents by value rather than by reference.
- Entangled: the ClassCastException of `getTag` and `parent` on a non-`AbstractSTObject` container is not modelled.
- Cvids: `CvidUtil`'s field widths, its random source and the enum numbers of instances and flavors are not part of this model. They are parameters.
- Cvids.AcceptedCvidDecodes: the CVID is positive only when its random part is nonzero, and the random source is not part of this model. The lemma therefore requires `0 < random`, like `Cvids.GeneratedCvidDecodes`. The CVID tests check positivity for whatever `CvidUtil.cvid` draws.
- Cvids: Netty's pipeline, the write future and the event handlers downstream are reduced to a record of what was written and triggered.
- ProtoUtil: `rq()`, `setPayload`, `getPayload` and the oneof helpers are not modelled.
- ProtoUtil.SuccessComment: `success(outcome, comment)` sets result and time on the caller's builder before `setComment(null)` throws NullPointerException, so in Java that builder is left holding result true and the elapsed time. The model returns only `Err(NullPointerException)` and does not return the partly updated outcome.
- ProtoUtil.Success: times are unbounded integers, so the wrap-around of Java's `long` subtraction is not modelled. The same holds for every elapsed-time computation in ProtoUtil.
- ProtoUtil.MessageClassToFieldName: `String.toLowerCase` on the prefix is modelled for ASCII letters only. Guava's case conversion is ASCII-only in the Java as well.
- Users: JPA identity, the `groups` relation and `db_id` are not modelled. `ValidationUtil.validConfig` is a parameter.
- Groups: the `MapStore` provider is modelled as a sequence in iteration order with lookup and removal by key. Its own code is not part of this model.
- Groups: `StoreBase.init` and the configurator are reduced to the list of default configurations.
- Groups: `Group`'s constructor, `merge` and `ConfigUtil` are parameters. Users are compared by value. The Java compares them with `User.equals`, from a class that is not part of this model (see the next line), so whether that is reference or value equality is not modelled.
- Groups and LoginHandlers: `GroupStore` and `LoginExe` use the `User` class of the server-vanilla store, which is not part of this model. The model takes it to be the modelled `Users.User` (the server store's `User.java`), and reads `getOwner().getCvid()`, `getHash()` and the membership test from that class.
- GroupHandlers: `rq_list_groups` is not modelled. It passes `null` to `getMembership`, which `Groups.GetMembership` shows throws as soon as a group exists, and it relies on `Group.extract`, which is not part of this model.
- GroupHandlers: the `@Auth` and `@Permission` checks of the dispatcher are not modelled. A group whose owner is null is not modelled.
- LoginHandlers: `ValidationUtil`, `UserStore`, `CryptoUtil` and the profile store are parameters or a map from username to profile.
- LoginHandlers.RqLogin: the outcome and the recorded login time use the same clock reading, whereas the Java reads the clock twice.
- Logging is not modelled anywhere.

## Findings

| source | as written | input that shows it | evidently intended | confidence | as-written member | corrected member |
|---|---|---|---|---|---|---|
| com.sandpolis.server.vanilla/src/main/java/com/sandpolis/server/vanilla/exe/GroupExe.java:81-85 | `rq_group_delta` checks ownership of `rq.getDelta().getConfig().getId()` but applies the delta to `rq.getId()` | a peer owns group `a`; group `b` has another owner; the request names `b` and the delta's config names `a`: group `b` is changed | ownership is checked for the group the delta is applied to, `rq.getId()` | not executed | GroupHandlers.RqGroupDeltaAsWritten | GroupHandlers.RqGroupDelta |

=== FILE: common.dfy ===
/** Values shared by every part of the model: optional values (Java's
    `null`), results of operations that may throw, and the exceptions the
    modelled Java code throws. */
module Common {

  /** A possibly-absent value; `None` stands for Java's `null`. */
  datatype Option<+T> = None | Some(value: T)
  {
    function GetOr(default: T): T
    {
      match this
      case Some(v) => v
      case None => default
    }
  }

  /** The exceptions thrown by the modelled code, named after the Java classes. */
  datatype Exception =
    | IllegalArgumentException(message: string)
    | IllegalStateException(message: string)
    | NullPointerException
    | IndexOutOfBoundsException
    | NumberFormatException
    | GenericOidException
    | RuntimeException(message: string)

  /** The outcome of a call that either returns a value or throws. */
  datatype Result<+T> = Ok(value: T) | Err(error: Exception)
  {
    predicate IsFailure()
    {
      Err?
    }

    function PropagateFailure<U>(): Result<U>
      requires Err?
    {
      Err(error)
    }

    function Extract(): T
      requires Ok?
    {
      value
    }
  }

  // ------------------------------------------------------------ division

  lemma {:induction false} MulAtLeast(k: int, m: nat)
    requires k >= 1
    ensures k * m >= m
    decreases k
  {
    if k > 1 {
      MulAtLeast(k - 1, m);
      assert k * m == (k - 1) * m + m;
    }
  }

  /** Euclidean division of `q * m + r` by `m` gives back `q` and `r`. */
  lemma DivModUnique(q: int, r: int, m: int)
    requires 0 <= r < m
    ensures (q * m + r) / m == q && (q * m + r) % m == r
  {
    var n := q * m + r;
    var q', r' := n / m, n % m;
    assert n == q' * m + r';
    assert (q - q') * m == r' - r;
    if q > q' {
      MulAtLeast(q - q', m);
    } else if q' > q {
      MulAtLeast(q' - q, m);
    }
  }
}

=== FILE: cvid.dfy ===
/** The CVID handshake on the responding side (`CvidResponseHandler`) and
    the CVID bit layout it relies on. A CVID packs the instance number into
    the low `iidSpace` bits, the flavor number into the next `fidSpace`
    bits, and random bits above them, keeping the value a non-negative
    32-bit integer. The widths and the random source belong to `CvidUtil`,
    which is not part of this model, so they are parameters. */
module Cvids {
  import opened Common

  // ------------------------------------------------------------ bit layout

  function Pow2(n: nat): (r: nat)
    ensures r >= 1
  {
    if n == 0 then 1 else 2 * Pow2(n - 1)
  }

  lemma {:induction false} Pow2Add(a: nat, b: nat)
    ensures Pow2(a + b) == Pow2(a) * Pow2(b)
    decreases a
  {
    if a > 0 {
      Pow2Add(a - 1, b);
      assert Pow2(a + b) == 2 * Pow2(a - 1 + b);
    }
  }

  /** The widths of the instance and flavor fields; together they leave at
      least one bit of the 31 value bits for randomness. */
  datatype Layout = Layout(iidSpace: nat, fidSpace: nat)

  predicate ValidLayout(l: Layout)
  {
    l.iidSpace + l.fidSpace < 31
  }

  /** The largest random part that keeps the CVID below 2^31. */
  function RandomBound(l: Layout): nat
    requires ValidLayout(l)
  {
    Pow2(31 - l.iidSpace - l.fidSpace)
  }

  /** `(random << (iid + fid)) | (fid << iid) | iid`, written with
      arithmetic: the three fields do not overlap. */
  function Pack(l: Layout, random: nat, iid: nat, fid: nat): nat
  {
    (random * Pow2(l.fidSpace) + fid) * Pow2(l.iidSpace) + iid
  }

  /** Euclidean division of naturals, as a right shift by `m`'s bits. */
  function Shr(x: nat, m: nat): nat
    requires m >= 1
  {
    x / m
  }

  function ExtractInstance(l: Layout, cvid: nat): nat
  {
    cvid % Pow2(l.iidSpace)
  }

  function ExtractFlavor(l: Layout, cvid: nat): nat
  {
    Shr(cvid, Pow2(l.iidSpace)) % Pow2(l.fidSpace)
  }

  function ExtractRandom(l: Layout, cvid: nat): nat
  {
    Shr(Shr(cvid, Pow2(l.iidSpace)), Pow2(l.fidSpace))
  }

  /** Extraction inverts packing: whatever the random bits, the instance
      and flavor fields come back unchanged, and so do the random bits. */
  lemma ExtractPack(l: Layout, random: nat, iid: nat, fid: nat)
    requires iid < Pow2(l.iidSpace) && fid < Pow2(l.fidSpace)
    ensures ExtractInstance(l, Pack(l, random, iid, fid)) == iid
    ensures ExtractFlavor(l, Pack(l, random, iid, fid)) == fid
    ensures ExtractRandom(l, Pack(l, random, iid, fid)) == random
  {
    var high := random * Pow2(l.fidSpace) + fid;
    DivModUnique(high, iid, Pow2(l.iidSpace));
    DivModUnique(random, fid, Pow2(l.fidSpace));
  }

  lemma PackedBelow(q: nat, r: nat, m: nat, bound: nat)
    requires q < bound && r < m
    ensures q * m + r < bound * m
  {
    assert bound * m == q * m + (bound - q) * m;
    MulAtLeast(bound - q, m);
  }

  /** The three field widths of a valid layout fill the 31 value bits. */
  lemma LayoutBound(l: Layout)
    requires ValidLayout(l)
    ensures RandomBound(l) * Pow2(l.fidSpace) * Pow2(l.iidSpace) == Pow2(31)
  {
    Pow2Add(31 - l.iidSpace - l.fidSpace, l.fidSpace);
    Pow2Add(31 - l.iidSpace, l.iidSpace);
  }

  lemma PackedPositive(q: nat, r: nat, m: nat)
    requires m >= 1
    ensures q * m + r > 0 <==> q > 0 || r > 0
  {
    if q > 0 {
      MulAtLeast(q, m);
    }
  }

  /** Packing two fields under widths `fi` and `ii` keeps the value below
      the product of the bounds, and zero only when every field is. */
  lemma PackedFields(random: nat, fid: nat, iid: nat, rb: nat, fi: nat, ii: nat)
    requires random < rb && fid < fi && iid < ii
    ensures (random * fi + fid) * ii + iid < rb * fi * ii
    ensures (random * fi + fid) * ii + iid > 0 <==> random > 0 || iid > 0 || fid > 0
  {
    var high := random * fi + fid;
    PackedBelow(random, fid, fi, rb);
    PackedBelow(high, iid, ii, rb * fi);
    PackedPositive(random, fid, fi);
    PackedPositive(high, iid, ii);
  }

  /** A packed CVID is a 32-bit `int` that is never negative, and it is
      positive exactly when some field is nonzero. */
  lemma PackRange(l: Layout, random: nat, iid: nat, fid: nat)
    requires ValidLayout(l)
    requires iid < Pow2(l.iidSpace) && fid < Pow2(l.fidSpace) && random < RandomBound(l)
    ensures Pack(l, random, iid, fid) < Pow2(31)
    ensures Pack(l, random, iid, fid) > 0 <==> random > 0 || iid > 0 || fid > 0
  {
    LayoutBound(l);
    PackedFields(random, fid, iid, RandomBound(l), Pow2(l.fidSpace), Pow2(l.iidSpace));
  }

  // ------------------------------------------------------------ the platform

  /** A protobuf enum value: a defined number, or UNRECOGNIZED. */
  datatype EnumValue = Known(number: nat) | Unrecognized

  /** The defined instance and flavor numbers and the number of SERVER. */
  datatype Platform = Platform(instances: set<nat>, flavors: set<nat>, server: nat)

  /** What the overflow tests check: every defined number fits its field. */
  predicate FitsLayout(p: Platform, l: Layout)
  {
    (forall n :: n in p.instances ==> n <= Pow2(l.iidSpace) - 1) &&
    (forall n :: n in p.flavors ==> n <= Pow2(l.fidSpace) - 1)
  }

  /** `CvidUtil.cvid(instance, flavor)` with the random bits supplied. */
  function GenerateCvid(l: Layout, random: nat, instance: nat, flavor: nat): nat
  {
    Pack(l, random, instance, flavor)
  }

  /** For every defined instance and flavor and every allowed random part,
      the CVID is below 2^31, positive when the random part is, and decodes
      to the instance and flavor it was made from. */
  lemma GeneratedCvidDecodes(p: Platform, l: Layout, random: nat, instance: nat, flavor: nat)
    requires ValidLayout(l) && FitsLayout(p, l)
    requires instance in p.instances && flavor in p.flavors
    requires 0 < random < RandomBound(l)
    ensures 0 < GenerateCvid(l, random, instance, flavor) < Pow2(31)
    ensures ExtractInstance(l, GenerateCvid(l, random, instance, flavor)) == instance
    ensures ExtractFlavor(l, GenerateCvid(l, random, instance, flavor)) == flavor
  {
    PackRange(l, random, instance, flavor);
    ExtractPack(l, random, instance, flavor);
  }

  // ------------------------------------------------------------ the handshake

  datatype RqCvid = RqCvid(uuid: string, instance: EnumValue, flavor: EnumValue)

  datatype RsCvid = RsCvid(serverCvid: int, serverUuid: string, cvid: int)

  /** The completion event: it carries the CVID only on success. */
  datatype CompletionEvent = CompletionEvent(cvid: Option<int>)

  /** The parts of a channel the handler reads and writes: whether the
      handler is still in the pipeline, the messages written, the INSTANCE,
      CVID and UUID attributes, and the user events triggered. */
  datatype Channel = Channel(
    handlerInstalled: bool,
    written: seq<RsCvid>,
    instance: Option<nat>,
    cvid: Option<int>,
    uuid: Option<string>,
    events: seq<CompletionEvent>)

  /** This instance's own identity (`Core.cvid()`, `Core.UUID`). */
  datatype Server = Server(cvid: int, uuid: string)

  /** The rejection test of `channelRead0`. */
  predicate Rejected(p: Platform, rq: Option<RqCvid>)
  {
    rq.None? || rq.value.uuid == [] || rq.value.instance.Unrecognized? ||
    rq.value.instance == Known(p.server) || rq.value.flavor.Unrecognized?
  }

  /** `channelRead0`: remove the handler, then either signal a failed
      handshake or reply, record the peer on the channel and signal success. */
  function ChannelRead(p: Platform, l: Layout, server: Server, random: nat, ch: Channel, rq: Option<RqCvid>): (r: Channel)
    ensures !r.handlerInstalled
    ensures |r.events| == |ch.events| + 1 && r.events[..|ch.events|] == ch.events
    ensures Rejected(p, rq) <==> r.events[|ch.events|].cvid.None?
    ensures Rejected(p, rq) ==> r == ch.(handlerInstalled := false, events := ch.events + [CompletionEvent(None)])
    ensures !Rejected(p, rq) ==>
      var cvid := GenerateCvid(l, random, rq.value.instance.number, rq.value.flavor.number);
      r.written == ch.written + [RsCvid(server.cvid, server.uuid, cvid)]
      && r.instance == Some(rq.value.instance.number) && r.cvid == Some(cvid) && r.uuid == Some(rq.value.uuid)
      && r.events[|ch.events|] == CompletionEvent(Some(cvid))
  {
    var ch := ch.(handlerInstalled := false);
    if Rejected(p, rq) then
      ch.(events := ch.events + [CompletionEvent(None)])
    else
      var q := rq.value;
      var rs := RsCvid(server.cvid, server.uuid, GenerateCvid(l, random, q.instance.number, q.flavor.number));
      var ch := ch.(written := ch.written + [rs]);
      var ch := ch.(instance := Some(q.instance.number), cvid := Some(rs.cvid), uuid := Some(q.uuid));
      ch.(events := ch.events + [CompletionEvent(Some(rs.cvid))])
  }

  /** Each of the five causes of rejection (no request, an empty UUID, an
      unrecognised instance, the SERVER instance, an unrecognised flavor)
      has the same effect: the handler is gone, nothing is written, the
      channel attributes are left alone, and a handshake completion without
      a CVID is signalled. */
  lemma RejectionCausesFailedHandshake(p: Platform, l: Layout, server: Server, random: nat, ch: Channel, rq: Option<RqCvid>)
    requires || rq.None?
             || rq.value.uuid == []
             || rq.value.instance.Unrecognized?
             || rq.value.instance == Known(p.server)
             || rq.value.flavor.Unrecognized?
    ensures var r := ChannelRead(p, l, server, random, ch, rq);
      && !r.handlerInstalled
      && r.written == ch.written
      && r.instance == ch.instance && r.cvid == ch.cvid && r.uuid == ch.uuid
      && r.events == ch.events + [CompletionEvent(None)]
  {
  }

  /** A request with none of those causes is answered: exactly one
      response is written and the channel records the peer. */
  lemma AcceptedRequestIsAnswered(p: Platform, l: Layout, server: Server, random: nat, ch: Channel, rq: RqCvid)
    requires rq.uuid != [] && rq.instance.Known? && rq.instance.number != p.server && rq.flavor.Known?
    ensures var r := ChannelRead(p, l, server, random, ch, Some(rq));
      && |r.written| == |ch.written| + 1 && r.written[..|ch.written|] == ch.written
      && r.instance == Some(rq.instance.number) && r.uuid == Some(rq.uuid)
      && r.cvid.Some? && r.events == ch.events + [CompletionEvent(r.cvid)]
  {
    var r := ChannelRead(p, l, server, random, ch, Some(rq));
    assert r.written[..|ch.written|] == ch.written;
  }

  /** A message reaching the pipeline: the handler sees it only while it is
      installed. */
  function Deliver(p: Platform, l: Layout, server: Server, random: nat, ch: Channel, rq: Option<RqCvid>): (r: Channel)
  {
    if ch.handlerInstalled then ChannelRead(p, l, server, random, ch, rq) else ch
  }

  /** The handler is single-use: after a first message, whatever it was, a
      second one changes nothing, so exactly one completion event and at
      most one response are ever produced. */
  lemma HandlerRunsOnce(p: Platform, l: Layout, server: Server, r1: nat, r2: nat, ch: Channel, a: Option<RqCvid>, b: Option<RqCvid>)
    requires ch.handlerInstalled
    ensures var once := Deliver(p, l, server, r1, ch, a);
      Deliver(p, l, server, r2, once, b) == once
      && |once.events| == |ch.events| + 1
      && |once.written| <= |ch.written| + 1
  {
  }

  /** An accepted request from a defined instance and flavor gives the peer
      a CVID that decodes to what it asked for. */
  lemma AcceptedCvidDecodes(p: Platform, l: Layout, server: Server, random: nat, ch: Channel, rq: RqCvid)
    requires ValidLayout(l) && FitsLayout(p, l)
    requires !Rejected(p, Some(rq)) && rq.instance.number in p.instances && rq.flavor.number in p.flavors
    requires 0 < random < RandomBound(l)
    ensures var r := ChannelRead(p, l, server, random, ch, Some(rq));
      r.cvid.Some? && r.cvid.value > 0
      && ExtractInstance(l, r.cvid.value) == rq.instance.number
      && ExtractFlavor(l, r.cvid.value) == rq.flavor.number
  {
    GeneratedCvidDecodes(p, l, random, rq.instance.number, rq.flavor.number);
  }
}

=== FILE: document.dfy ===
/** The in-memory state tree: a document owns three tag-keyed maps of
    sub-documents, collections and attributes; a collection owns a tag-keyed
    map of documents. Models the class `Document` (its get-or-create
    accessors) and the tag-based accessors of collections. */
module Documents {
  import opened Common

  /** The contents of an attribute are outside the model. */
  datatype Attribute = Attribute(value: string)

  /** An attribute tag may be bound to `None`, Java's `null`. */
  datatype Document = Document(
    documents: map<int, Document>,
    collections: map<int, Collection>,
    attributes: map<int, Option<Attribute>>)

  datatype Collection = Collection(documents: map<int, Document>)

  /** The node a document is created under; the constructors ignore it. */
  datatype Owner = DocumentOwner(document: Document) | CollectionOwner(collection: Collection)

  const EmptyCollection: Collection := Collection(map[])

  predicate IsEmpty(d: Document)
  {
    d.documents == map[] && d.collections == map[] && d.attributes == map[]
  }

  /** `new Document(parent)`: both constructors start with three empty maps,
      whatever the parent. */
  function NewDocument(parent: Owner): (r: Document)
    ensures IsEmpty(r)
  {
    Document(map[], map[], map[])
  }

  /** `attribute(tag)`: an unbound tag, or one bound to null, is (re)bound
      to null and null is returned; an attribute is never created. */
  function AttributeOf(d: Document, tag: int): (r: (Document, Option<Attribute>))
    ensures r.0.documents == d.documents && r.0.collections == d.collections
    ensures tag in r.0.attributes && r.0.attributes[tag] == r.1
    ensures tag in d.attributes && d.attributes[tag].Some? ==> r == (d, d.attributes[tag])
    ensures !(tag in d.attributes && d.attributes[tag].Some?) ==> r.1.None?
    ensures forall t :: t != tag ==> (t in r.0.attributes <==> t in d.attributes)
    ensures forall t :: t != tag && t in d.attributes ==> r.0.attributes[t] == d.attributes[t]
  {
    if tag in d.attributes && d.attributes[tag].Some? then (d, d.attributes[tag])
    else (d.(attributes := d.attributes[tag := None]), None)
  }

  /** `document(tag)`: the bound sub-document, or a new empty one that is
      bound to the tag first. */
  function DocumentChild(d: Document, tag: int): (r: (Document, Document))
    ensures r.0 == d.(documents := d.documents[tag := r.1])
    ensures tag in d.documents ==> r == (d, d.documents[tag])
    ensures tag !in d.documents ==> IsEmpty(r.1)
  {
    if tag in d.documents then (d, d.documents[tag])
    else
      var child := NewDocument(DocumentOwner(d));
      (d.(documents := d.documents[tag := child]), child)
  }

  /** `collection(tag)`: the bound collection, or a new empty one that is
      bound to the tag first. */
  function CollectionChild(d: Document, tag: int): (r: (Document, Collection))
    ensures r.0 == d.(collections := d.collections[tag := r.1])
    ensures tag in d.collections ==> r == (d, d.collections[tag])
    ensures tag !in d.collections ==> r.1 == EmptyCollection
  {
    if tag in d.collections then (d, d.collections[tag])
    else (d.(collections := d.collections[tag := EmptyCollection]), EmptyCollection)
  }

  /** `getDocument(tag)`, on a document and on a collection alike: a
      lookup that creates nothing, null for an unbound tag. */
  function Lookup(documents: map<int, Document>, tag: int): (r: Option<Document>)
    ensures r.None? <==> tag !in documents
    ensures r.Some? ==> r.value == documents[tag]
  {
    if tag in documents then Some(documents[tag]) else None
  }

  function GetDocument(d: Document, tag: int): Option<Document>
  {
    Lookup(d.documents, tag)
  }

  /** A collection's `document(tag)`, which never returns null: the bound
      document, or a new empty one bound to the tag first. */
  function CollectionDocument(c: Collection, tag: int): (r: (Collection, Document))
    ensures r.0 == Collection(c.documents[tag := r.1])
    ensures tag in c.documents ==> r == (c, c.documents[tag])
    ensures tag !in c.documents ==> IsEmpty(r.1)
  {
    if tag in c.documents then (c, c.documents[tag])
    else
      var child := NewDocument(CollectionOwner(c));
      (Collection(c.documents[tag := child]), child)
  }

  function CollectionGetDocument(c: Collection, tag: int): Option<Document>
  {
    Lookup(c.documents, tag)
  }

  function CollectionSize(c: Collection): nat
  {
    |c.documents|
  }

  // ------------------------------------------------------------ laws

  /** Asking twice for the same sub-document returns the same child, and the
      second call changes nothing. */
  lemma DocumentChildIdempotent(d: Document, tag: int)
    ensures var (d1, child) := DocumentChild(d, tag);
      DocumentChild(d1, tag) == (d1, child)
  {
  }

  lemma CollectionChildIdempotent(d: Document, tag: int)
    ensures var (d1, coll) := CollectionChild(d, tag);
      CollectionChild(d1, tag) == (d1, coll)
  {
  }

  lemma CollectionDocumentIdempotent(c: Collection, tag: int)
    ensures var (c1, child) := CollectionDocument(c, tag);
      CollectionDocument(c1, tag) == (c1, child)
  {
  }

  /** Get-or-create and lookup agree: after `document(tag)` the lookup finds
      the child it returned, and a lookup that finds a child sees exactly
      what `document(tag)` would return without changing anything. */
  lemma DocumentChildThenGet(d: Document, tag: int)
    ensures var (d1, child) := DocumentChild(d, tag);
      GetDocument(d1, tag) == Some(child)
    ensures GetDocument(d, tag).Some? ==> DocumentChild(d, tag) == (d, GetDocument(d, tag).value)
  {
  }

  lemma CollectionDocumentThenGet(c: Collection, tag: int)
    ensures var (c1, child) := CollectionDocument(c, tag);
      CollectionGetDocument(c1, tag) == Some(child)
    ensures CollectionGetDocument(c, tag).Some? ==> CollectionDocument(c, tag) == (c, CollectionGetDocument(c, tag).value)
  {
  }

  /** Each accessor touches only its own map, and in it only the given tag. */
  lemma AccessorsTouchOnlyTheirTag(d: Document, tag: int)
    ensures var d1 := DocumentChild(d, tag).0;
      d1.collections == d.collections && d1.attributes == d.attributes
      && forall t :: t != tag ==>
           (t in d1.documents <==> t in d.documents) && (t in d.documents ==> d1.documents[t] == d.documents[t])
    ensures var d2 := CollectionChild(d, tag).0;
      d2.documents == d.documents && d2.attributes == d.attributes
      && forall t :: t != tag ==>
           (t in d2.collections <==> t in d.collections) && (t in d.collections ==> d2.collections[t] == d.collections[t])
  {
  }

  /** `attribute(tag)` never adds an attribute: the set of tags bound to an
      actual attribute is the same before and after. */
  lemma AttributeNeverCreates(d: Document, tag: int)
    ensures var d1 := AttributeOf(d, tag).0;
      forall t :: (t in d1.attributes && d1.attributes[t].Some?) <==> (t in d.attributes && d.attributes[t].Some?)
  {
  }
}

=== FILE: entangled.dfy ===
/** An entangled collection (`EntangledCollection`): a wrapper around a
    plain state-tree collection that keeps it synchronised with a remote
    peer. The constructor refuses null and already-entangled containers and
    chooses which sync streams to start from the direction and whether this
    side initiated; every other operation is forwarded to the wrapped
    collection. */
module Entangled {
  import opened Common
  import opened Oids
  import opened Documents
  import opened StObjects

  /** The direction of a synchronisation; `UnrecognizedDirection` stands for
      any other value the enum may carry. */
  datatype Direction = Upstream | Downstream | Bidirectional | UnrecognizedDirection

  /** `STSyncStruct`: the direction (possibly null) and whether this side
      initiated the synchronisation. */
  datatype SyncConfig = SyncConfig(direction: Option<Direction>, initiator: bool)

  /** A stream end: a source sends local changes, a sink applies remote ones. */
  datatype Stream = Source | Sink

  /** A plain collection of the state tree, with the state its accessors
      read and write. */
  datatype Container = Container(oid: Oid, tag: int, parent: Option<Oid>, collection: Collection, listeners: Listeners)

  datatype EntangledCollection = EntangledCollection(container: Container, streams: seq<Stream>)

  /** What the constructor may be given: nothing (null), a plain collection,
      or a collection that is itself entangled. */
  datatype Candidate = Plain(container: Container) | AlreadyEntangled(entangled: EntangledCollection)

  /** The streams started for a configuration, in the order the switch starts
      them; null and unrecognised directions throw. */
  function StartStreams(config: SyncConfig): (r: Result<seq<Stream>>)
    ensures config.direction.None? ==> r == Err(NullPointerException)
    ensures config.direction == Some(UnrecognizedDirection) <==> r.Err? && r.error.IllegalArgumentException?
    ensures r.Ok? ==> 1 <= |r.value| <= 2
    ensures r.Ok? ==> (|r.value| == 2 <==> config.direction == Some(Bidirectional))
  {
    match config.direction
    case None => Err(NullPointerException)
    case Some(Bidirectional) => Ok([Source, Sink])
    case Some(Downstream) => Ok(if config.initiator then [Sink] else [Source])
    case Some(Upstream) => Ok(if config.initiator then [Source] else [Sink])
    case Some(UnrecognizedDirection) => Err(IllegalArgumentException(""))
  }

  /** The constructor: `requireNonNull`, then the nesting check, then the
      streams. */
  function Entangle(candidate: Option<Candidate>, config: SyncConfig): (r: Result<EntangledCollection>)
    ensures candidate.None? ==> r == Err(NullPointerException)
    ensures candidate.Some? && candidate.value.AlreadyEntangled? ==> r.Err? && r.error.IllegalArgumentException?
    ensures r.Ok? <==> candidate.Some? && candidate.value.Plain? && StartStreams(config).Ok?
    ensures r.Ok? ==> r.value.container == candidate.value.container && r.value.streams == StartStreams(config).value
  {
    match candidate
    case None => Err(NullPointerException)
    case Some(AlreadyEntangled(_)) => Err(IllegalArgumentException("Entanged objects cannot be nested"))
    case Some(Plain(c)) =>
      var streams :- StartStreams(config);
      Ok(EntangledCollection(c, streams))
  }

  /** For upstream and downstream, each side starts exactly one stream, and
      the initiator and the responder take opposite ends: together they form
      one source and one sink. Upstream sends from the initiator. */
  lemma OneWayRolesAreComplementary(d: Direction)
    requires d == Upstream || d == Downstream
    ensures var mine := StartStreams(SyncConfig(Some(d), true));
      var theirs := StartStreams(SyncConfig(Some(d), false));
      mine.Ok? && theirs.Ok? && |mine.value| == 1 && |theirs.value| == 1 && mine.value[0] != theirs.value[0]
    ensures StartStreams(SyncConfig(Some(d), true)) == Ok(if d == Upstream then [Source] else [Sink])
  {
  }

  /** Whatever the recognised direction, the streams the two sides start
      pair up: as many sources as sinks in total. */
  lemma StreamsPairUp(d: Direction)
    requires d != UnrecognizedDirection
    ensures var both := StartStreams(SyncConfig(Some(d), true)).value + StartStreams(SyncConfig(Some(d), false)).value;
      multiset(both)[Source] == multiset(both)[Sink]
  {
    var both := StartStreams(SyncConfig(Some(d), true)).value + StartStreams(SyncConfig(Some(d), false)).value;
    if d == Bidirectional {
      assert both == [Source, Sink] + [Source, Sink];
      OnePairEach([Source, Sink]);
      OnePairEach(both);
    } else if d == Upstream {
      assert both == [Source, Sink];
      OnePairEach(both);
    } else {
      assert both == [Sink, Source];
      OnePairEach(both);
    }
  }

  lemma OnePairEach(both: seq<Stream>)
    requires both == [Source, Sink] || both == [Sink, Source] || both == [Source, Sink] + [Source, Sink]
    ensures multiset(both)[Source] == multiset(both)[Sink]
  {
    if both == [Source, Sink] + [Source, Sink] {
      assert multiset(both) == multiset([Source, Sink]) + multiset([Source, Sink]);
    }
  }

  /** Entangled collections never nest: wrapping the result again fails. */
  lemma NeverNested(e: EntangledCollection, config: SyncConfig)
    ensures Entangle(Some(AlreadyEntangled(e)), config).Err?
  {
  }

  // ------------------------------------------------------------ forwarding

  /** The operations the wrapper forwards. */
  datatype Op =
    | DocumentOp(tag: int)
    | GetDocumentOp(tag: int)
    | SetDocumentOp(tag: int, document: Document)
    | RemoveOp(document: Document)
    | SizeOp
    | OidOp
    | ParentOp
    | GetTagOp
    | SetTagOp(tag: int)
    | AddListenerOp
    | RemoveListenerOp

  datatype Reply =
    | NoReply
    | DocumentReply(document: Document)
    | MaybeDocumentReply(found: Option<Document>)
    | IntReply(n: int)
    | OidReply(oid: Oid)
    | ParentReply(parent: Option<Oid>)

  /** The plain collection's own behaviour for each operation. */
  function Perform(c: Container, op: Op): (r: (Container, Reply))
    ensures r.0.oid == c.oid && r.0.parent == c.parent
  {
    match op
    case DocumentOp(tag) =>
      var (coll, d) := CollectionDocument(c.collection, tag);
      (c.(collection := coll), DocumentReply(d))
    case GetDocumentOp(tag) => (c, MaybeDocumentReply(CollectionGetDocument(c.collection, tag)))
    case SetDocumentOp(tag, d) => (c.(collection := Collection(c.collection.documents[tag := d])), NoReply)
    case RemoveOp(d) =>
      var docs := c.collection.documents;
      (c.(collection := Collection(map t | t in docs && docs[t] != d :: docs[t])), NoReply)
    case SizeOp => (c, IntReply(CollectionSize(c.collection)))
    case OidOp => (c, OidReply(c.oid))
    case ParentOp => (c, ParentReply(c.parent))
    case GetTagOp => (c, IntReply(c.tag))
    case SetTagOp(tag) => (c.(tag := tag), NoReply)
    case AddListenerOp => (c.(listeners := AddListener(c.listeners)), NoReply)
    case RemoveListenerOp => (c.(listeners := RemoveListener(c.listeners)), NoReply)
  }

  /** The wrapper's methods: each calls the same method on `container`. */
  function EntangledPerform(e: EntangledCollection, op: Op): (r: (EntangledCollection, Reply))
    ensures r.0.streams == e.streams
  {
    var (c, reply) := Perform(e.container, op);
    (e.(container := c), reply)
  }

  function PerformAll(c: Container, ops: seq<Op>): (r: (Container, seq<Reply>))
    ensures |r.1| == |ops|
    decreases |ops|
  {
    if |ops| == 0 then (c, [])
    else
      var (c1, reply) := Perform(c, ops[0]);
      var (c2, replies) := PerformAll(c1, ops[1..]);
      (c2, [reply] + replies)
  }

  function EntangledPerformAll(e: EntangledCollection, ops: seq<Op>): (r: (EntangledCollection, seq<Reply>))
    ensures |r.1| == |ops|
    decreases |ops|
  {
    if |ops| == 0 then (e, [])
    else
      var (e1, reply) := EntangledPerform(e, ops[0]);
      var (e2, replies) := EntangledPerformAll(e1, ops[1..]);
      (e2, [reply] + replies)
  }

  /** Wrapping is transparent: any sequence of operations on the entangled
      collection gives the replies the plain collection would give, leaves
      the wrapped collection as the plain one would be, and never changes
      the streams. */
  lemma {:induction false} EntangledIsTransparent(e: EntangledCollection, ops: seq<Op>)
    ensures EntangledPerformAll(e, ops).1 == PerformAll(e.container, ops).1
    ensures EntangledPerformAll(e, ops).0 == EntangledCollection(PerformAll(e.container, ops).0, e.streams)
    decreases |ops|
  {
    if |ops| > 0 {
      var (e1, _) := EntangledPerform(e, ops[0]);
      EntangledIsTransparent(e1, ops[1..]);
    }
  }

  /** `document(tag)` through the wrapper never returns null and is the
      wrapped collection's get-or-create; `getDocument(tag)` is null exactly
      when the tag is absent; `remove(document)` unbinds exactly that
      document. */
  lemma ForwardedLookups(e: EntangledCollection, tag: int)
    ensures var (e1, reply) := EntangledPerform(e, DocumentOp(tag));
      reply.DocumentReply? && CollectionGetDocument(e1.container.collection, tag) == Some(reply.document)
    ensures var (e1, reply) := EntangledPerform(e, GetDocumentOp(tag));
      e1 == e && (reply.found.None? <==> tag !in e.container.collection.documents)
    ensures EntangledPerform(e, SizeOp).1 == IntReply(|e.container.collection.documents|)
    ensures EntangledPerform(e, OidOp).1 == OidReply(e.container.oid)
    ensures forall d :: var docs := EntangledPerform(e, RemoveOp(d)).0.container.collection.documents;
      forall t :: t in docs <==> t in e.container.collection.documents && e.container.collection.documents[t] != d
  {
  }
}

=== FILE: group_exe.dfy ===
/** The group request handlers (`GroupExe`): adding, removing and changing
    groups on behalf of a connected peer, with ownership checked against
    the peer's CVID. The clock readings of `begin()` and `success(...)` are
    parameters (`start`, `now`). */
module GroupHandlers {
  import opened Common
  import opened ProtoUtil
  import opened Users
  import opened Groups

  /** `checkOwnership`: an unknown group is never owned; a known one is
      owned when its owner's CVID is the peer's. */
  predicate CheckOwnership(s: Store, remoteCvid: int, groupId: string)
  {
    match Get(s, groupId)
    case None => false
    case Some(g) => g.owner.cvid == remoteCvid
  }

  /** Whatever the store holds, an ID no stored group has is never owned,
      and ownership is witnessed by a stored group with that ID whose owner
      is the peer. */
  lemma OwnershipWitnessed(s: Store, remoteCvid: int, groupId: string)
    ensures (forall g :: g in s.groups ==> g.id != groupId) ==> !CheckOwnership(s, remoteCvid, groupId)
    ensures CheckOwnership(s, remoteCvid, groupId) ==>
      exists g :: g in s.groups && g.id == groupId && g.owner.cvid == remoteCvid
  {
  }

  /** Ownership means that some group stored under the ID has the peer as
      owner; with one group per ID, every such group. */
  lemma OwnershipMeansOwnedGroup(s: Store, remoteCvid: int, groupId: string)
    requires UniqueIds(s)
    ensures CheckOwnership(s, remoteCvid, groupId) <==>
      exists g :: g in s.groups && g.id == groupId && g.owner.cvid == remoteCvid
  {
    if g :| g in s.groups && g.id == groupId && g.owner.cvid == remoteCvid {
      var k :| 0 <= k < |s.groups| && s.groups[k] == g;
      GetFindsStored(s, k);
    }
  }

  /** The default `GroupConfig` instance protobuf returns for an unset
      field. */
  const DefaultGroupConfig: GroupConfig := GroupConfig("", "")

  /** `rq_add_group`: the request's config (the default instance when
      unset, so never null) is added; an exception from the store leaves
      the handler. */
  function RqAddGroup(c: Collaborators, s: Store, config: Option<GroupConfig>, start: int, now: int): (r: Result<(Store, Outcome)>)
    ensures var cfg := config.GetOr(DefaultGroupConfig);
      r.Ok? <==> c.valid(cfg) == OK && c.complete(cfg) == OK && Get(s, c.build(cfg).id).None?
    ensures r.Err? ==> r.error.IllegalArgumentException?
    ensures r.Ok? ==> r.value.0.groups == s.groups + [c.build(config.GetOr(DefaultGroupConfig))]
    ensures r.Ok? ==> r.value.1.result && r.value.1.time == now - start
  {
    var s1 :- AddConfig(c, s, Some(config.GetOr(DefaultGroupConfig)));
    Ok((s1, Success(Begin(start), now)))
  }

  /** A group added through the handler is the one `get` then finds under
      its ID, and the store keeps one group per ID. */
  lemma AddedGroupIsFound(c: Collaborators, s: Store, config: Option<GroupConfig>, start: int, now: int)
    requires UniqueIds(s) && RqAddGroup(c, s, config, start, now).Ok?
    ensures var g := c.build(config.GetOr(DefaultGroupConfig));
      var s1 := RqAddGroup(c, s, config, start, now).value.0;
      Get(s1, g.id) == Some(g) && UniqueIds(s1)
  {
    var g := c.build(config.GetOr(DefaultGroupConfig));
    AddThenGet(s, g);
  }

  /** `rq_remove_group`: refused with ACCESS_DENIED, and nothing removed,
      unless the peer owns the group. */
  function RqRemoveGroup(s: Store, remoteCvid: int, id: string, start: int, now: int): (r: (Store, Outcome))
    ensures !CheckOwnership(s, remoteCvid, id) ==> r == (s, FailureOnlyCode(ACCESS_DENIED))
    ensures CheckOwnership(s, remoteCvid, id) ==>
      r.1.result && r.1.time == now - start
      && forall g :: g in r.0.groups <==> g in s.groups && g.id != id
  {
    if !CheckOwnership(s, remoteCvid, id) then (s, FailureOnlyCode(ACCESS_DENIED))
    else (Remove(s, id), Success(Begin(start), now))
  }

  /** A removal that changes the store was asked for by the owner of a
      group that was there, and only that group is gone. */
  lemma RemovalNeedsOwnership(s: Store, remoteCvid: int, id: string, start: int, now: int)
    requires RqRemoveGroup(s, remoteCvid, id, start, now).0 != s
    ensures exists g :: g in s.groups && g.id == id && g.owner.cvid == remoteCvid
    ensures Get(RqRemoveGroup(s, remoteCvid, id, start, now).0, id).None?
  {
    var g := Get(s, id).value;
    assert g in s.groups;
  }

  /** `RQ_GroupDelta`: the ID of the group to change and the delta. */
  datatype RqDelta = RqDelta(id: string, delta: GroupDelta)

  /** `rq_group_delta` as written: ownership is checked for the group the
      delta's config names, but the delta is applied to the group the
      request names. */
  function RqGroupDeltaAsWritten(c: Collaborators, s: Store, remoteCvid: int, rq: RqDelta, start: int, now: int): (r: (Store, Outcome))
    ensures !CheckOwnership(s, remoteCvid, DeltaConfigId(rq.delta)) ==> r == (s, FailureOnlyCode(ACCESS_DENIED))
    ensures CheckOwnership(s, remoteCvid, DeltaConfigId(rq.delta)) ==>
      var (s1, code) := Delta(c, s, rq.id, rq.delta);
      r.0 == s1 && (r.1.result <==> code == OK) && r.1.time == now - start
  {
    if !CheckOwnership(s, remoteCvid, DeltaConfigId(rq.delta)) then (s, FailureOnlyCode(ACCESS_DENIED))
    else
      var (s1, code) := Delta(c, s, rq.id, rq.delta);
      (s1, CompleteCode(Begin(start), now, code))
  }

  /** A peer that owns group `a` changes group `b`, which another peer
      owns, by naming `a` in the delta's config and `b` in the request;
      the corrected handler refuses the same request. */
  lemma AsWrittenChangesForeignGroup(c: Collaborators, a: Group, b: Group, remoteCvid: int, rq: RqDelta, start: int, now: int)
    requires a.id != b.id && a.owner.cvid == remoteCvid && b.owner.cvid != remoteCvid
    requires rq.id == b.id && DeltaConfigId(rq.delta) == a.id
    requires c.merge(b, rq.delta).0 != b
    ensures RqGroupDeltaAsWritten(c, Store([a, b]), remoteCvid, rq, start, now).0.groups[1] != b
    ensures RqGroupDelta(c, Store([a, b]), remoteCvid, rq, start, now) == (Store([a, b]), FailureOnlyCode(ACCESS_DENIED))
  {
    var s := Store([a, b]);
    assert Get(s, a.id) == Some(a);
    assert Get(s, b.id) == Some(b);
  }

  /** `rq_group_delta` with the ownership check on the group it changes. */
  function RqGroupDelta(c: Collaborators, s: Store, remoteCvid: int, rq: RqDelta, start: int, now: int): (r: (Store, Outcome))
    ensures !CheckOwnership(s, remoteCvid, rq.id) ==> r == (s, FailureOnlyCode(ACCESS_DENIED))
    ensures CheckOwnership(s, remoteCvid, rq.id) ==>
      var (s1, code) := Delta(c, s, rq.id, rq.delta);
      r.0 == s1 && (r.1.result <==> code == OK) && r.1.time == now - start
  {
    if !CheckOwnership(s, remoteCvid, rq.id) then (s, FailureOnlyCode(ACCESS_DENIED))
    else
      var (s1, code) := Delta(c, s, rq.id, rq.delta);
      (s1, CompleteCode(Begin(start), now, code))
  }

  /** With the corrected check, a delta request changes no group the peer
      does not own: every group that differs afterwards was the peer's. */
  lemma DeltaChangesOnlyOwnedGroups(c: Collaborators, s: Store, remoteCvid: int, rq: RqDelta, start: int, now: int, k: int)
    requires UniqueIds(s) && 0 <= k < |s.groups|
    requires RqGroupDelta(c, s, remoteCvid, rq, start, now).0.groups[k] != s.groups[k]
    ensures s.groups[k].owner.cvid == remoteCvid
  {
    GetFindsStored(s, k);
  }
}

=== FILE: group_store.dfy ===
/** The server's group store (`GroupStore`): groups keyed by their ID,
    adding with an ID-conflict check, the three queries over all groups,
    applying a delta, and loading the configured default groups. The
    provider that holds the groups (`MapStore`) is not part of this model:
    it is a sequence in the provider's iteration order, looked up and
    removed by key. `ConfigUtil`, the `Group(config)` constructor and
    `Group.merge` are not part of this model either and are parameters. */
module Groups {
  import opened Common
  import opened ProtoUtil
  import opened Users

  /** `GroupConfig`: the group ID and the rest of the configuration. */
  datatype GroupConfig = GroupConfig(id: string, settings: string)

  /** `ProtoGroup`, the delta a group merges: an optional config and the
      rest of the message. */
  datatype GroupDelta = GroupDelta(config: Option<GroupConfig>, payload: string)

  /** `rq.getDelta().getConfig().getId()`: the empty string when no config
      is set. */
  function DeltaConfigId(d: GroupDelta): (r: string)
    ensures d.config.None? ==> r == ""
    ensures d.config.Some? ==> r == d.config.value.id
  {
    match d.config
    case None => ""
    case Some(c) => c.id
  }

  datatype PasswordMechanism = PasswordMechanism(password: string)

  datatype Group = Group(
    id: string,
    owner: User,
    members: seq<User>,
    keys: seq<string>,
    passwords: seq<PasswordMechanism>)

  /** The collaborators: configuration checks, the constructor from a
      configuration, and the group's own merge. */
  datatype Collaborators = Collaborators(
    valid: GroupConfig -> ErrorCode,
    complete: GroupConfig -> ErrorCode,
    build: GroupConfig -> Group,
    merge: (Group, GroupDelta) -> (Group, ErrorCode))

  datatype Store = Store(groups: seq<Group>)

  const EmptyStore: Store := Store([])

  /** What the keyed provider guarantees: one group per ID. */
  predicate UniqueIds(s: Store)
  {
    forall i, j :: 0 <= i < j < |s.groups| ==> s.groups[i].id != s.groups[j].id
  }

  function Find(gs: seq<Group>, id: string): (r: Option<Group>)
    ensures r.Some? ==> r.value in gs && r.value.id == id
    ensures r.None? <==> forall g :: g in gs ==> g.id != id
  {
    if |gs| == 0 then None
    else if gs[0].id == id then Some(gs[0])
    else Find(gs[1..], id)
  }

  /** `get(id)`. */
  function Get(s: Store, id: string): (r: Option<Group>)
    ensures r.Some? ==> r.value in s.groups && r.value.id == id
    ensures r.None? <==> forall g :: g in s.groups ==> g.id != id
  {
    Find(s.groups, id)
  }

  /** With one group per ID, `get` returns the group stored under the ID. */
  lemma GetFindsStored(s: Store, k: int)
    requires UniqueIds(s) && 0 <= k < |s.groups|
    ensures Get(s, s.groups[k].id) == Some(s.groups[k])
  {
    var id := s.groups[k].id;
    var r := Get(s, id);
    var j :| 0 <= j < |s.groups| && s.groups[j] == r.value;
    assert j == k;
  }

  /** `add(Group)`: refused with "ID conflict" when the ID is taken;
      otherwise the provider gains the group. */
  function AddGroup(s: Store, g: Group): (r: Result<Store>)
    ensures r.Err? <==> exists h :: h in s.groups && h.id == g.id
    ensures r.Err? ==> r.error == IllegalArgumentException("ID conflict")
    ensures r.Ok? ==> r.value.groups == s.groups + [g]
    ensures r.Ok? && UniqueIds(s) ==> UniqueIds(r.value)
  {
    if Get(s, g.id).Some? then Err(IllegalArgumentException("ID conflict"))
    else Ok(Store(s.groups + [g]))
  }

  /** A group just added is what `get` returns for its ID. */
  lemma AddThenGet(s: Store, g: Group)
    requires UniqueIds(s) && AddGroup(s, g).Ok?
    ensures Get(AddGroup(s, g).value, g.id) == Some(g)
  {
    var t := AddGroup(s, g).value;
    GetFindsStored(t, |s.groups|);
  }

  /** `add(GroupConfig)` (and `add(GroupConfig.Builder)`, which builds and
      calls it): null is refused, then an invalid and then an incomplete
      configuration, before the store is looked at. */
  function AddConfig(c: Collaborators, s: Store, config: Option<GroupConfig>): (r: Result<Store>)
    ensures config.None? ==> r == Err(NullPointerException)
    ensures config.Some? && c.valid(config.value) != OK ==>
      r == Err(IllegalArgumentException("Invalid configuration"))
    ensures config.Some? && c.valid(config.value) == OK && c.complete(config.value) != OK ==>
      r == Err(IllegalArgumentException("Incomplete configuration"))
    ensures r.Ok? <==> config.Some? && c.valid(config.value) == OK && c.complete(config.value) == OK
                       && Get(s, c.build(config.value).id).None?
    ensures r.Ok? ==> r.value.groups == s.groups + [c.build(config.value)]
  {
    match config
    case None => Err(NullPointerException)
    case Some(cfg) =>
      if c.valid(cfg) != OK then Err(IllegalArgumentException("Invalid configuration"))
      else if c.complete(cfg) != OK then Err(IllegalArgumentException("Incomplete configuration"))
      else AddGroup(s, c.build(cfg))
  }

  /** `remove(id)`: the provider drops the group stored under the ID. */
  function Remove(s: Store, id: string): (r: Store)
    ensures forall g :: g in r.groups <==> g in s.groups && g.id != id
    ensures |r.groups| <= |s.groups|
    ensures UniqueIds(s) ==> UniqueIds(r)
    decreases |s.groups|
  {
    if |s.groups| == 0 then s
    else
      var rest := Remove(Store(s.groups[1..]), id);
      if s.groups[0].id == id then rest
      else
        assert forall g :: g in rest.groups ==> g in s.groups[1..];
        Store([s.groups[0]] + rest.groups)
  }

  /** Removing an ID that is absent changes nothing. */
  lemma {:induction false} RemoveAbsent(s: Store, id: string)
    requires Get(s, id).None?
    ensures Remove(s, id) == s
    decreases |s.groups|
  {
    if |s.groups| > 0 {
      var tail := Store(s.groups[1..]);
      assert s.groups[0] in s.groups;
      forall g | g in tail.groups
        ensures g.id != id
      {
        assert g in s.groups;
      }
      RemoveAbsent(tail, id);
      assert [s.groups[0]] + tail.groups == s.groups;
    }
  }

  // ------------------------------------------------------------ queries

  /** The filters of the three queries. */
  datatype Query = Membership(user: User) | Unauthenticated | ByPassword(password: Option<string>)

  /** A user belongs to a group as its owner or as a member. */
  predicate InGroup(user: User, g: Group)
  {
    user == g.owner || user in g.members
  }

  /** A group without any key and without any password. */
  predicate Unauth(g: Group)
  {
    |g.keys| == 0 && |g.passwords| == 0
  }

  /** Some password mechanism of the group holds `password`; a null
      password equals none. */
  predicate HasPassword(g: Group, password: Option<string>)
  {
    password.Some? && exists m :: m in g.passwords && m.password == password.value
  }

  predicate Matches(q: Query, g: Group)
  {
    match q
    case Membership(user) => InGroup(user, g)
    case Unauthenticated => Unauth(g)
    case ByPassword(password) => HasPassword(g, password)
  }

  /** The reference filter: the matching groups in iteration order. */
  function Keep(gs: seq<Group>, q: Query): seq<Group>
    decreases |gs|
  {
    if |gs| == 0 then []
    else Keep(gs[..|gs| - 1], q) + (if Matches(q, gs[|gs| - 1]) then [gs[|gs| - 1]] else [])
  }

  /** The filter keeps exactly the matching groups, and no more of them
      than there are groups. */
  lemma {:induction false} KeepExactly(gs: seq<Group>, q: Query)
    ensures forall g :: g in Keep(gs, q) <==> g in gs && Matches(q, g)
    ensures |Keep(gs, q)| <= |gs|
    decreases |gs|
  {
    if |gs| > 0 {
      var init := gs[..|gs| - 1];
      KeepExactly(init, q);
      assert gs == init + [gs[|gs| - 1]];
    }
  }

  /** `stream().filter(...).collect(toList())`. */
  method Select(s: Store, q: Query) returns (r: seq<Group>)
    ensures r == Keep(s.groups, q)
    ensures forall g :: g in r <==> g in s.groups && Matches(q, g)
  {
    r := [];
    var i := 0;
    while i < |s.groups|
      invariant 0 <= i <= |s.groups|
      invariant r == Keep(s.groups[..i], q)
    {
      assert s.groups[..i + 1][..i] == s.groups[..i];
      if Matches(q, s.groups[i]) {
        r := r + [s.groups[i]];
      }
      i := i + 1;
    }
    assert s.groups[..i] == s.groups;
    KeepExactly(s.groups, q);
  }

  /** `getMembership(user)`: the groups the user owns or belongs to. The
      filter calls `user.equals`, so a null user throws as soon as there is
      a group to test. */
  method GetMembership(s: Store, user: Option<User>) returns (r: Result<seq<Group>>)
    ensures r.Err? <==> user.None? && |s.groups| > 0
    ensures r.Err? ==> r.error == NullPointerException
    ensures r.Ok? ==> forall g :: g in r.value <==> g in s.groups && InGroup(user.value, g)
  {
    if user.None? {
      if |s.groups| > 0 {
        return Err(NullPointerException);
      }
      return Ok([]);
    }
    var found := Select(s, Membership(user.value));
    r := Ok(found);
  }

  /** `getUnauthGroups()`: the groups with neither keys nor passwords. */
  method GetUnauthGroups(s: Store) returns (r: seq<Group>)
    ensures forall g :: g in r <==> g in s.groups && Unauth(g)
    ensures |r| <= |s.groups|
  {
    r := Select(s, Unauthenticated);
    KeepExactly(s.groups, Unauthenticated);
  }

  /** `getByPassword(password)`: the groups holding the password. */
  method GetByPassword(s: Store, password: Option<string>) returns (r: seq<Group>)
    ensures forall g :: g in r <==> g in s.groups && HasPassword(g, password)
    ensures password.None? ==> r == []
  {
    r := Select(s, ByPassword(password));
    if password.None? && |r| > 0 {
      assert r[0] in r;
    }
  }

  // ------------------------------------------------------------ delta and init

  /** The store with the group under `id` replaced by `g`. */
  function Replace(gs: seq<Group>, id: string, g: Group): (r: seq<Group>)
    ensures |r| == |gs|
    ensures forall k :: 0 <= k < |gs| ==> r[k] == (if gs[k].id == id then g else gs[k])
  {
    if |gs| == 0 then []
    else [if gs[0].id == id then g else gs[0]] + Replace(gs[1..], id, g)
  }

  /** `delta(id, delta)`: an unknown ID is reported and nothing changes;
      otherwise the group merges the delta in place and its code is
      returned. */
  function Delta(c: Collaborators, s: Store, id: string, delta: GroupDelta): (r: (Store, ErrorCode))
    ensures Get(s, id).None? ==> r == (s, UNKNOWN_GROUP)
    ensures Get(s, id).Some? ==>
      var (merged, code) := c.merge(Get(s, id).value, delta);
      r.1 == code && |r.0.groups| == |s.groups|
      && forall k :: 0 <= k < |s.groups| ==>
           r.0.groups[k] == (if s.groups[k].id == id then merged else s.groups[k])
  {
    match Get(s, id)
    case None => (s, UNKNOWN_GROUP)
    case Some(g) =>
      var (merged, code) := c.merge(g, delta);
      (Store(Replace(s.groups, id, merged)), code)
  }

  /** A delta leaves every group stored under another ID as it was. */
  lemma DeltaTouchesOnlyItsGroup(c: Collaborators, s: Store, id: string, delta: GroupDelta, k: int)
    requires 0 <= k < |s.groups| && s.groups[k].id != id
    ensures Delta(c, s, id, delta).0.groups[k] == s.groups[k]
  {
  }

  /** `init`: each default configuration is added in order; the first one
      that throws ends the loop, and the groups added before it stay. */
  function Init(c: Collaborators, s: Store, defaults: seq<Option<GroupConfig>>): (r: (Store, Option<Exception>))
    ensures |s.groups| <= |r.0.groups| <= |s.groups| + |defaults|
    ensures r.0.groups[..|s.groups|] == s.groups
    ensures r.1.None? <==> |r.0.groups| == |s.groups| + |defaults|
    decreases |defaults|
  {
    if |defaults| == 0 then (s, None)
    else
      match AddConfig(c, s, defaults[0])
      case Err(e) => (s, Some(e))
      case Ok(s1) =>
        assert s1.groups[..|s.groups|] == s.groups;
        var rest := Init(c, s1, defaults[1..]);
        assert rest.0.groups[..|s.groups|] == rest.0.groups[..|s1.groups|][..|s.groups|];
        rest
  }

  /** One step of `init` that adds its first default. */
  lemma InitUnfoldsOnAdd(c: Collaborators, s: Store, defaults: seq<Option<GroupConfig>>)
    requires |defaults| > 0 && AddConfig(c, s, defaults[0]).Ok?
    ensures Init(c, s, defaults) == Init(c, AddConfig(c, s, defaults[0]).value, defaults[1..])
  {
  }

  /** `init` keeps the IDs unique. */
  lemma {:induction false} InitKeepsUniqueIds(c: Collaborators, s: Store, defaults: seq<Option<GroupConfig>>)
    requires UniqueIds(s)
    ensures UniqueIds(Init(c, s, defaults).0)
    decreases |defaults|
  {
    if |defaults| > 0 && AddConfig(c, s, defaults[0]).Ok? {
      InitUnfoldsOnAdd(c, s, defaults);
      InitKeepsUniqueIds(c, AddConfig(c, s, defaults[0]).value, defaults[1..]);
    }
  }

  /** The groups present before `init` keep their positions. */
  lemma InitKeepsEarlier(c: Collaborators, s: Store, defaults: seq<Option<GroupConfig>>, k: int)
    requires 0 <= k < |s.groups|
    ensures Init(c, s, defaults).0.groups[k] == s.groups[k]
  {
    var r := Init(c, s, defaults).0.groups;
    assert r[..|s.groups|][k] == r[k];
  }

  /** The groups `init` adds are the ones built from the defaults, in the
      order of the defaults, none of which was null. */
  lemma {:induction false} InitAddsBuilt(c: Collaborators, s: Store, defaults: seq<Option<GroupConfig>>, k: int)
    requires |s.groups| <= k < |Init(c, s, defaults).0.groups|
    ensures defaults[k - |s.groups|].Some?
    ensures Init(c, s, defaults).0.groups[k] == c.build(defaults[k - |s.groups|].value)
    decreases |defaults|, 1
  {
    if |defaults| > 0 && AddConfig(c, s, defaults[0]).Ok? {
      if k == |s.groups| {
        InitAddsFirst(c, s, defaults);
      } else {
        var s1 := AddConfig(c, s, defaults[0]).value;
        InitUnfoldsOnAdd(c, s, defaults);
        InitAddsLater(c, s, s1, defaults, k);
      }
    }
  }

  /** The first group `init` adds is the one built from the first default. */
  lemma InitAddsFirst(c: Collaborators, s: Store, defaults: seq<Option<GroupConfig>>)
    requires |defaults| > 0 && AddConfig(c, s, defaults[0]).Ok?
    ensures defaults[0].Some?
    ensures Init(c, s, defaults).0.groups[|s.groups|] == c.build(defaults[0].value)
  {
    var s1 := AddConfig(c, s, defaults[0]).value;
    InitUnfoldsOnAdd(c, s, defaults);
    InitKeepsEarlier(c, s1, defaults[1..], |s.groups|);
  }

  /** The later groups `init` adds come from the later defaults: after a
      step that added one group, position `k` is position `k` of the rest. */
  lemma {:induction false} InitAddsLater(c: Collaborators, s: Store, s1: Store, defaults: seq<Option<GroupConfig>>, k: int)
    requires |defaults| > 0 && |s1.groups| == |s.groups| + 1
    requires Init(c, s, defaults) == Init(c, s1, defaults[1..])
    requires |s.groups| < k < |Init(c, s, defaults).0.groups|
    ensures defaults[k - |s.groups|].Some?
    ensures Init(c, s, defaults).0.groups[k] == c.build(defaults[k - |s.groups|].value)
    decreases |defaults|, 0
  {
    InitAddsBuilt(c, s1, defaults[1..], k);
    var m := k - |s1.groups|;
    assert defaults[1..][m] == defaults[m + 1];
  }
}

=== FILE: install_component.dfy ===
/** The installable components (`InstallComponent`): each constant carries
    a Maven-style coordinate `group:artifact:` from which the constructor
    derives the file base (the artifact) and the module ID (`com.` followed
    by the artifact with its dashes turned into dots). */
module Installer {
  import opened Common
  import opened JavaStrings

  datatype Component = Component(coordinate: string, id: string, fileBase: string)

  /** The constructor. `coordinate.split(":")[1]` throws when the coordinate
      has fewer than two fields after trailing empty ones are dropped. */
  function NewComponent(coordinate: string): (r: Result<Component>)
    ensures r.Err? <==> |Split(coordinate, ':')| < 2
    ensures r.Err? ==> r.error == IndexOutOfBoundsException
    ensures r.Ok? ==> r.value.coordinate == coordinate
    ensures r.Ok? ==> r.value.fileBase == Split(coordinate, ':')[1]
    ensures r.Ok? ==> '-' !in r.value.id
    ensures r.Ok? ==> |r.value.id| == 4 + |r.value.fileBase| && r.value.id[..4] == "com."
    ensures r.Ok? ==> forall i :: 0 <= i < |r.value.fileBase| ==>
      r.value.id[4 + i] == (if r.value.fileBase[i] == '-' then '.' else r.value.fileBase[i])
  {
    var fields := Split(coordinate, ':');
    if |fields| < 2 then Err(IndexOutOfBoundsException)
    else Ok(Component(coordinate, "com." + ReplaceChar(fields[1], '-', '.'), fields[1]))
  }

  /** For a coordinate `group:artifact:version` (the version may be empty,
      as in every constant) whose fields hold no colon, the file base is the
      artifact. */
  lemma FileBaseIsArtifact(group: string, artifact: string, version: string)
    requires ':' !in group && ':' !in artifact && ':' !in version && artifact != ""
    ensures var c := NewComponent(Join([group, artifact, version], ':'));
      c.Ok? && c.value.fileBase == artifact
  {
    var ps := [group, artifact, version];
    PiecesOfJoin(ps, ':');
    SeparatorInJoin(ps, ':');
    if version == "" {
      assert DropTrailingEmpty(ps) == [group, artifact];
    }
  }

  /** The four constants. */
  datatype Kind = ServerVanilla | ViewerLifegem | ViewerAscetic | ClientMega

  function Artifact(k: Kind): string
  {
    match k
    case ServerVanilla => "sandpolis-server-vanilla"
    case ViewerLifegem => "sandpolis-viewer-lifegem"
    case ViewerAscetic => "sandpolis-viewer-ascetic"
    case ClientMega => "sandpolis-client-mega"
  }

  /** The coordinate each constant is declared with. */
  function Coordinate(k: Kind): string
  {
    "com.sandpolis:" + Artifact(k) + ":"
  }

  /** The module name each constant's documentation gives. */
  function DocumentedModule(k: Kind): string
  {
    match k
    case ServerVanilla => "com.sandpolis.server.vanilla"
    case ViewerLifegem => "com.sandpolis.viewer.lifegem"
    case ViewerAscetic => "com.sandpolis.viewer.ascetic"
    case ClientMega => "com.sandpolis.client.mega"
  }

  lemma JoinOfThree(a: string, b: string, c: string, sep: char)
    ensures Join([a, b, c], sep) == a + [sep] + b + [sep] + c
  {
    var ps := [a, b, c];
    assert ps[1..] == [b, c];
    assert Join(ps[1..], sep) == b + [sep] + Join([c], sep);
  }

  /** The coordinate of each constant is the `group:artifact:` join. */
  lemma CoordinateIsJoin(k: Kind, coordinate: string, artifact: string)
    requires coordinate == Coordinate(k) && artifact == Artifact(k)
    ensures coordinate == Join(["com.sandpolis", artifact, ""], ':')
  {
    JoinOfThree("com.sandpolis", artifact, "", ':');
  }

  /** Turning the dashes of an artifact into dots and prefixing `com.`
      gives `moduleName`, checked character by character. */
  lemma Dotted(artifact: string, moduleName: string)
    requires |moduleName| == 4 + |artifact| && moduleName[..4] == "com."
    requires forall i :: 0 <= i < |artifact| ==>
      moduleName[4 + i] == (if artifact[i] == '-' then '.' else artifact[i])
    ensures "com." + ReplaceChar(artifact, '-', '.') == moduleName
  {
  }

  lemma DottedServerVanilla(artifact: string, moduleName: string)
    requires artifact == Artifact(ServerVanilla) && moduleName == DocumentedModule(ServerVanilla)
    ensures "com." + ReplaceChar(artifact, '-', '.') == moduleName
  {
    Dotted(artifact, moduleName);
  }

  lemma DottedViewerLifegem(artifact: string, moduleName: string)
    requires artifact == Artifact(ViewerLifegem) && moduleName == DocumentedModule(ViewerLifegem)
    ensures "com." + ReplaceChar(artifact, '-', '.') == moduleName
  {
    Dotted(artifact, moduleName);
  }

  lemma DottedViewerAscetic(artifact: string, moduleName: string)
    requires artifact == Artifact(ViewerAscetic) && moduleName == DocumentedModule(ViewerAscetic)
    ensures "com." + ReplaceChar(artifact, '-', '.') == moduleName
  {
    Dotted(artifact, moduleName);
  }

  lemma DottedClientMega(artifact: string, moduleName: string)
    requires artifact == Artifact(ClientMega) && moduleName == DocumentedModule(ClientMega)
    ensures "com." + ReplaceChar(artifact, '-', '.') == moduleName
  {
    Dotted(artifact, moduleName);
  }

  /** For each constant, the documented module name is its artifact with
      the dashes turned into dots, after `com.`. */
  lemma DottedArtifact(k: Kind, artifact: string, moduleName: string)
    requires artifact == Artifact(k) && moduleName == DocumentedModule(k)
    ensures "com." + ReplaceChar(artifact, '-', '.') == moduleName
  {
    match k
    case ServerVanilla => DottedServerVanilla(artifact, moduleName);
    case ViewerLifegem => DottedViewerLifegem(artifact, moduleName);
    case ViewerAscetic => DottedViewerAscetic(artifact, moduleName);
    case ClientMega => DottedClientMega(artifact, moduleName);
  }

  /** Every constant constructs, and its ID is the module its documentation
      names. */
  lemma ConstantIdsAreDocumentedModules(k: Kind)
    ensures var c := NewComponent(Coordinate(k));
      c.Ok? && c.value.fileBase == Artifact(k) && c.value.id == DocumentedModule(k)
  {
    CoordinateIsJoin(k, Coordinate(k), Artifact(k));
    FileBaseIsArtifact("com.sandpolis", Artifact(k), "");
    DottedArtifact(k, Artifact(k), DocumentedModule(k));
  }
}

=== FILE: java_strings.dfy ===
/** The few pieces of the Java string library the modelled code relies on:
    `String.split` around a single literal character, `Collectors.joining`,
    `String.valueOf(int)`, `Integer.valueOf(String)`, `String.replaceAll` with
    a one-character literal pattern, and ASCII case mapping. */
module JavaStrings {
  import opened Common

  const INT_MIN: int := -0x8000_0000
  const INT_MAX: int := 0x7FFF_FFFF

  predicate IsInt32(n: int)
  {
    INT_MIN <= n <= INT_MAX
  }

  // ---------------------------------------------------------------- split / join

  /** Every piece of `s` around `sep`, empty ones included: one more piece than
      there are separators. */
  function Pieces(s: string, sep: char): (r: seq<string>)
    ensures |r| > 0
  {
    if |s| == 0 then [""]
    else if s[0] == sep then [""] + Pieces(s[1..], sep)
    else
      var rest := Pieces(s[1..], sep);
      [[s[0]] + rest[0]] + rest[1..]
  }

  function DropTrailingEmpty(ps: seq<string>): (r: seq<string>)
    ensures |r| <= |ps| && r == ps[..|r|]
    ensures |r| > 0 ==> r[|r| - 1] != ""
    ensures forall i :: |r| <= i < |ps| ==> ps[i] == ""
  {
    if |ps| == 0 then []
    else if ps[|ps| - 1] == "" then DropTrailingEmpty(ps[..|ps| - 1])
    else ps
  }

  /** `s.split(sep)` for a regular expression that matches exactly the one
      character `sep`: when `sep` does not occur the result is `[s]` (even for
      the empty string); otherwise trailing empty pieces are dropped. */
  function Split(s: string, sep: char): seq<string>
  {
    if sep !in s then [s] else DropTrailingEmpty(Pieces(s, sep))
  }

  /** `Collectors.joining(sep)`. */
  function Join(ps: seq<string>, sep: char): string
  {
    if |ps| == 0 then ""
    else if |ps| == 1 then ps[0]
    else ps[0] + [sep] + Join(ps[1..], sep)
  }

  lemma {:induction false} PiecesWithoutSeparator(a: string, sep: char)
    requires sep !in a
    ensures Pieces(a, sep) == [a]
  {
    if |a| > 0 {
      PiecesWithoutSeparator(a[1..], sep);
      assert [a[0]] + a[1..] == a;
    }
  }

  lemma {:induction false} PiecesAfterFirstSeparator(a: string, rest: string, sep: char)
    requires sep !in a
    ensures Pieces(a + [sep] + rest, sep) == [a] + Pieces(rest, sep)
  {
    if |a| == 0 {
      assert a + [sep] + rest == [sep] + rest;
      assert ([sep] + rest)[1..] == rest;
    } else {
      PiecesAfterFirstSeparator(a[1..], rest, sep);
      assert (a + [sep] + rest)[1..] == a[1..] + [sep] + rest;
      assert [a[0]] + a[1..] == a;
    }
  }

  lemma {:induction false} PiecesOfJoin(ps: seq<string>, sep: char)
    requires |ps| > 0
    requires forall i :: 0 <= i < |ps| ==> sep !in ps[i]
    ensures Pieces(Join(ps, sep), sep) == ps
  {
    if |ps| == 1 {
      PiecesWithoutSeparator(ps[0], sep);
    } else {
      PiecesOfJoin(ps[1..], sep);
      PiecesAfterFirstSeparator(ps[0], Join(ps[1..], sep), sep);
      assert [ps[0]] + ps[1..] == ps;
    }
  }

  lemma {:induction false} SeparatorInJoin(ps: seq<string>, sep: char)
    requires |ps| > 1
    ensures sep in Join(ps, sep)
  {
    assert Join(ps, sep)[|ps[0]|] == sep;
  }

  lemma {:induction false} NoSeparatorInSingleJoin(ps: seq<string>, sep: char)
    requires |ps| == 1 && sep !in ps[0]
    ensures sep !in Join(ps, sep)
  {
  }

  /** Joining non-empty pieces that contain no separator and splitting the
      result gives the pieces back. */
  lemma SplitJoin(ps: seq<string>, sep: char)
    requires |ps| > 0
    requires forall i :: 0 <= i < |ps| ==> ps[i] != "" && sep !in ps[i]
    ensures Split(Join(ps, sep), sep) == ps
  {
    if |ps| == 1 {
      NoSeparatorInSingleJoin(ps, sep);
    } else {
      SeparatorInJoin(ps, sep);
      PiecesOfJoin(ps, sep);
    }
  }

  // ---------------------------------------------------------------- integers

  function DigitChar(d: nat): char
    requires d < 10
  {
    ('0' as int + d) as char
  }

  predicate IsDigit(c: char)
  {
    '0' <= c <= '9'
  }

  function DigitValue(c: char): nat
    requires IsDigit(c)
  {
    (c - '0') as nat
  }

  predicate AllDigits(s: string)
  {
    forall i :: 0 <= i < |s| ==> IsDigit(s[i])
  }

  /** The shortest decimal form of `n`. */
  function NatToString(n: nat): (r: string)
    ensures |r| > 0 && AllDigits(r)
  {
    if n < 10 then [DigitChar(n)] else NatToString(n / 10) + [DigitChar(n % 10)]
  }

  function DigitsValue(s: string): nat
    requires AllDigits(s)
  {
    if |s| == 0 then 0 else DigitsValue(s[..|s| - 1]) * 10 + DigitValue(s[|s| - 1])
  }

  lemma DigitRoundTrip(d: nat)
    requires d < 10
    ensures IsDigit(DigitChar(d)) && DigitValue(DigitChar(d)) == d
  {
  }

  lemma {:induction false} DigitsValueOfNatToString(n: nat)
    ensures DigitsValue(NatToString(n)) == n
  {
    DigitRoundTrip(n % 10);
    if n >= 10 {
      var s := NatToString(n);
      var front := NatToString(n / 10);
      assert s == front + [DigitChar(n % 10)];
      assert s[..|s| - 1] == front && s[|s| - 1] == DigitChar(n % 10);
      DigitsValueOfNatToString(n / 10);
    }
  }

  /** `String.valueOf(int)`: a minus sign for negative numbers, then the digits. */
  function IntToString(n: int): (r: string)
    ensures |r| > 0 && '.' !in r
  {
    if n < 0 then "-" + NatToString(-n) else NatToString(n)
  }

  /** `Integer.valueOf(String)` in radix 10: an optional sign, at least one
      digit, and a value that fits in 32 bits; anything else throws
      NumberFormatException. */
  function ParseInt(s: string): (r: Result<int>)
    ensures r.Ok? ==> IsInt32(r.value)
    ensures |s| == 0 ==> r.Err?
    ensures r.Err? ==> r.error == NumberFormatException
  {
    if |s| == 0 then Err(NumberFormatException)
    else
      var body := if s[0] == '-' || s[0] == '+' then s[1..] else s;
      if |body| == 0 || !AllDigits(body) then Err(NumberFormatException)
      else
        var magnitude := DigitsValue(body);
        var n: int := if s[0] == '-' then -(magnitude as int) else magnitude;
        if IsInt32(n) then Ok(n) else Err(NumberFormatException)
  }

  /** Every 32-bit integer survives printing and parsing. */
  lemma ParseIntOfIntToString(n: int)
    requires IsInt32(n)
    ensures ParseInt(IntToString(n)) == Ok(n)
  {
    if n < 0 {
      ParseIntOfNegative(n);
    } else {
      ParseIntOfNonNegative(n);
    }
  }

  lemma ParseIntOfNegative(n: int)
    requires IsInt32(n) && n < 0
    ensures ParseInt(IntToString(n)) == Ok(n)
  {
    var m: nat := -n;
    DigitsValueOfNatToString(m);
    ParseIntOfMinusDigits(IntToString(n), NatToString(m), m);
  }

  /** A minus sign followed by digits parses to minus their value when
      that fits in 32 bits. */
  lemma ParseIntOfMinusDigits(s: string, digits: string, m: nat)
    requires |digits| > 0 && AllDigits(digits) && DigitsValue(digits) == m
    requires 0 < m <= 0x8000_0000
    requires s == "-" + digits
    ensures ParseInt(s) == Ok(-(m as int))
  {
    assert s[0] == '-' && s[1..] == digits;
  }

  lemma ParseIntOfNonNegative(n: int)
    requires IsInt32(n) && n >= 0
    ensures ParseInt(IntToString(n)) == Ok(n)
  {
    var digits := NatToString(n);
    assert IsDigit(digits[0]);
    DigitsValueOfNatToString(n);
  }

  // ---------------------------------------------------------------- characters

  predicate IsAsciiUpper(c: char)
  {
    'A' <= c <= 'Z'
  }

  function AsciiLower(c: char): (r: char)
    ensures !IsAsciiUpper(r)
  {
    if IsAsciiUpper(c) then (c as int + 32) as char else c
  }

  function AsciiUpper(c: char): char
  {
    if 'a' <= c <= 'z' then (c as int - 32) as char else c
  }

  /** `toLowerCase()` restricted to ASCII letters. */
  function Lower(s: string): (r: string)
    ensures |r| == |s|
    ensures forall i :: 0 <= i < |s| ==> r[i] == AsciiLower(s[i])
  {
    if |s| == 0 then "" else [AsciiLower(s[0])] + Lower(s[1..])
  }

  /** `s.replaceAll(p, q)` where both `p` and `q` are one literal character. */
  function ReplaceChar(s: string, from: char, to: char): (r: string)
    ensures |r| == |s|
    ensures forall i :: 0 <= i < |s| ==> r[i] == (if s[i] == from then to else s[i])
  {
    if |s| == 0 then "" else [if s[0] == from then to else s[0]] + ReplaceChar(s[1..], from, to)
  }

  /** The index of the first occurrence of `c`, or `|s|` when there is none
      (`indexOf` returns -1 there; callers only use it when `c` occurs). */
  function IndexOf(s: string, c: char): (r: nat)
    ensures r <= |s|
    ensures r < |s| ==> s[r] == c
    ensures forall i :: 0 <= i < r ==> s[i] != c
    ensures c in s <==> r < |s|
  {
    if |s| == 0 then 0 else if s[0] == c then 0 else 1 + IndexOf(s[1..], c)
  }
}

=== FILE: login_exe.dfy ===
/** The login and logout handlers (`LoginExe`). A login is accepted only
    when the username is well-formed, names an account, the account has not
    expired and the password matches its hash, in that order; an accepted
    login marks the connection authenticated and records the login on the
    viewer's profile, creating the profile on first login. Username
    validation, the account lookup, the expiry test and the password-hash
    check belong to code that is not part of this model (`ValidationUtil`,
    `UserStore`, `CryptoUtil`) and are parameters, as is the clock. */
module LoginHandlers {
  import opened Common
  import opened ProtoUtil
  import opened Users

  /** The parts of the connector the handlers read and change. */
  datatype Connection = Connection(
    authenticated: bool,
    open: bool,
    remoteUuid: string,
    remoteInstance: int,
    remoteFlavor: int,
    remoteIp: string)

  /** A viewer profile: the peer identity it was created from and the
      viewer attributes the handler sets. */
  datatype Profile = Profile(
    uuid: string,
    instance: int,
    flavor: int,
    username: string,
    loginIp: string,
    loginTime: int)

  /** The viewer profiles, by username (`ProfileStore.getViewer`). */
  type Profiles = map<string, Profile>

  /** Every profile is filed under the username it records. */
  predicate FiledByUsername(profiles: Profiles)
  {
    forall name :: name in profiles ==> profiles[name].username == name
  }

  datatype Credentials = Credentials(username: string, password: string)

  /** The collaborators a login consults. */
  datatype Authority = Authority(
    validUsername: string -> bool,
    lookup: string -> Option<User>,
    isExpired: User -> bool,
    passwordMatches: (string, Option<string>) -> bool)

  /** The code the checks produce for a request, `OK` when all pass. */
  function Verdict(a: Authority, rq: Credentials): (r: ErrorCode)
    ensures r == OK || r == INVALID_USERNAME || r == ACCESS_DENIED
    ensures r == INVALID_USERNAME <==> !a.validUsername(rq.username)
    ensures r == OK <==> a.validUsername(rq.username) && a.lookup(rq.username).Some?
                         && !a.isExpired(a.lookup(rq.username).value)
                         && a.passwordMatches(rq.password, a.lookup(rq.username).value.hash)
  {
    if !a.validUsername(rq.username) then INVALID_USERNAME
    else match a.lookup(rq.username)
      case None => ACCESS_DENIED
      case Some(user) =>
        if a.isExpired(user) then ACCESS_DENIED
        else if !a.passwordMatches(rq.password, user.hash) then ACCESS_DENIED
        else OK
  }

  /** `rq_login`: on any failing check, the failure outcome with its code
      and nothing else changes; otherwise the connection is authenticated,
      the profile (created from the peer's identity when missing) gets the
      login address and time, and the outcome is a success. */
  function RqLogin(a: Authority, conn: Connection, profiles: Profiles, rq: Credentials, start: int, now: int): (r: (Connection, Profiles, Outcome))
    ensures Verdict(a, rq) != OK ==>
      r == (conn, profiles, FailureCode(Begin(start), now, Verdict(a, rq)))
    ensures Verdict(a, rq) == OK ==>
      r.0 == conn.(authenticated := true) && r.2 == Success(Begin(start), now)
      && r.1.Keys == profiles.Keys + {rq.username}
      && r.1[rq.username].loginIp == conn.remoteIp && r.1[rq.username].loginTime == now
      && (rq.username in profiles ==>
            r.1[rq.username] == profiles[rq.username].(loginIp := conn.remoteIp, loginTime := now))
      && (rq.username !in profiles ==>
            r.1[rq.username] == Profile(conn.remoteUuid, conn.remoteInstance, conn.remoteFlavor, rq.username, conn.remoteIp, now))
      && (FiledByUsername(profiles) ==> FiledByUsername(r.1))
      && (forall name :: name in profiles && name != rq.username ==> r.1[name] == profiles[name])
  {
    var outcome := Begin(start);
    var code := Verdict(a, rq);
    if code != OK then (conn, profiles, FailureCode(outcome, now, code))
    else
      var conn := conn.(authenticated := true);
      var profile :=
        if rq.username in profiles then profiles[rq.username]
        else Profile(conn.remoteUuid, conn.remoteInstance, conn.remoteFlavor, rq.username, "", 0);
      var profile := profile.(loginIp := conn.remoteIp, loginTime := now);
      (conn, profiles[rq.username := profile], Success(outcome, now))
  }

  /** A connection becomes authenticated through a login exactly when every
      check passes, and the outcome reports success exactly then too. */
  lemma LoginAuthenticatesIffAccepted(a: Authority, conn: Connection, profiles: Profiles, rq: Credentials, start: int, now: int)
    requires !conn.authenticated
    ensures var r := RqLogin(a, conn, profiles, rq, start, now);
      r.0.authenticated <==> Verdict(a, rq) == OK
    ensures RqLogin(a, conn, profiles, rq, start, now).2.result <==> Verdict(a, rq) == OK
  {
  }

  /** The profile is created by the first accepted login only: a later
      login from another peer keeps the identity recorded the first time. */
  lemma ProfileCreatedOnce(a: Authority, c1: Connection, c2: Connection, profiles: Profiles, rq: Credentials, t1: int, t2: int, t3: int)
    requires Verdict(a, rq) == OK && rq.username !in profiles
    ensures var p1 := RqLogin(a, c1, profiles, rq, t1, t2).1;
      var p2 := RqLogin(a, c2, p1, rq, t2, t3).1;
      p2[rq.username].uuid == c1.remoteUuid && p2[rq.username].instance == c1.remoteInstance
      && p2[rq.username].flavor == c1.remoteFlavor
      && p2[rq.username].loginIp == c2.remoteIp && p2[rq.username].loginTime == t3
      && p2.Keys == profiles.Keys + {rq.username}
  {
  }

  /** `rq_logout`: the connection is closed; nothing else changes. */
  function RqLogout(conn: Connection): (r: Connection)
    ensures !r.open && r.(open := conn.open) == conn
  {
    conn.(open := false)
  }
}

=== FILE: oid.dfy ===
/** Object identifiers (OIDs): the addresses of nodes in the state tree.
    An OID is a non-empty sequence of integer components; its dotted string
    form is cached when the OID was built from a string. Models the class
    `OidBase`, shared by absolute and relative OIDs. */
module Oids {
  import opened Common
  import opened JavaStrings

  /** The fields of an `OidBase`: the components and the cached dotted form. */
  datatype OidBase = OidBase(value: seq<int>, dotted: Option<string>)

  /** Every OID the constructors accept has at least one component. */
  type Oid = o: OidBase | |o.value| > 0 witness OidBase([1], None)

  function Size(o: Oid): nat
  {
    |o.value|
  }

  function First(o: Oid): int
  {
    o.value[0]
  }

  /** An OID is concrete when none of its components is a zero placeholder. */
  predicate IsConcrete(o: Oid)
  {
    forall i :: 0 <= i < |o.value| ==> o.value[i] != 0
  }

  /** `o` lies strictly below `base`: `base`'s components are a proper prefix
      of `o`'s. */
  predicate IsChildOf(o: Oid, base: Oid)
  {
    |base.value| < |o.value| && o.value[..|base.value|] == base.value
  }

  // ------------------------------------------------------------ construction

  /** `new OidBase(int[])`: an empty component array is refused. */
  function FromComponents(value: seq<int>): (r: Result<Oid>)
    ensures r.Ok? <==> |value| > 0
    ensures r.Ok? ==> r.value.value == value && r.value.dotted.None?
    ensures r.Err? ==> r.error.IllegalArgumentException?
  {
    if |value| == 0 then Err(IllegalArgumentException("Empty OID")) else Ok(OidBase(value, None))
  }

  /** Parses every dotted piece with `Integer.valueOf`, stopping at the first
      piece that is not a 32-bit decimal integer. */
  function ParseAll(parts: seq<string>): (r: Result<seq<int>>)
    ensures r.Ok? <==> forall i :: 0 <= i < |parts| ==> ParseInt(parts[i]).Ok?
    ensures r.Ok? ==> |r.value| == |parts|
    ensures r.Ok? ==> forall i :: 0 <= i < |parts| ==> ParseInt(parts[i]) == Ok(r.value[i])
    ensures r.Err? ==> r.error == NumberFormatException
  {
    if |parts| == 0 then Ok([])
    else
      var n :- ParseInt(parts[0]);
      var rest :- ParseAll(parts[1..]);
      Ok([n] + rest)
  }

  /** `new OidBase(String)`: split around dots, parse each piece, refuse an
      empty result, and remember the original string as the dotted form. */
  function Parse(s: string): (r: Result<Oid>)
    ensures r.Ok? <==> |Split(s, '.')| > 0 && forall i :: 0 <= i < |Split(s, '.')| ==> ParseInt(Split(s, '.')[i]).Ok?
    ensures r.Ok? ==> r.value.dotted == Some(s)
    ensures r.Ok? ==> |r.value.value| == |Split(s, '.')|
    ensures r.Ok? ==> forall i :: 0 <= i < |r.value.value| ==> ParseInt(Split(s, '.')[i]) == Ok(r.value.value[i])
    ensures r.Err? ==> r.error == NumberFormatException || r.error == IllegalArgumentException("Empty OID")
  {
    var components :- ParseAll(Split(s, '.'));
    var o :- FromComponents(components);
    Ok(o.(dotted := Some(s)))
  }

  /** The empty string has one empty piece, which `Integer.valueOf`
      refuses; a lone dot splits into no pieces at all, which the
      component constructor refuses. */
  lemma ParseRefusesEmptyForms()
    ensures Parse("") == Err(NumberFormatException)
    ensures Parse(".") == Err(IllegalArgumentException("Empty OID"))
  {
    assert Split("", '.') == [""];
    assert Pieces(".", '.') == ["", ""];
    assert Split(".", '.') == [];
  }

  function ComponentStrings(value: seq<int>): (r: seq<string>)
    ensures |r| == |value|
  {
    seq(|value|, i requires 0 <= i < |value| => IntToString(value[i]))
  }

  /** `toString`: the cached dotted form, or the components joined by dots. */
  function ToString(o: Oid): (r: string)
    ensures o.dotted.Some? ==> r == o.dotted.value
    ensures o.dotted.None? ==> Split(r, '.') == ComponentStrings(o.value)
    ensures o.dotted.None? ==> Pieces(r, '.') == ComponentStrings(o.value)
  {
    match o.dotted
    case Some(d) => d
    case None =>
      SplitJoin(ComponentStrings(o.value), '.');
      PiecesOfJoin(ComponentStrings(o.value), '.');
      Join(ComponentStrings(o.value), '.')
  }

  // ------------------------------------------------------------ equality

  /** `equals`: the component arrays agree element by element; the cached
      dotted form plays no part. */
  function Equals(a: Oid, b: Oid): (r: bool)
    ensures r <==> |a.value| == |b.value| && forall i :: 0 <= i < |a.value| ==> a.value[i] == b.value[i]
    ensures r <==> a.(dotted := None) == b.(dotted := None)
  {
    a.value == b.value
  }

  // ------------------------------------------------------------ navigation

  /** `head(n)`: the first `n` components; `n` must lie in 1..size. */
  function Head(o: Oid, n: int): (r: Result<Oid>)
    ensures r.Ok? <==> 0 < n <= |o.value|
    ensures r.Ok? ==> |r.value.value| == n && r.value.value == o.value[..n]
    ensures r.Err? ==> r.error.IllegalArgumentException?
  {
    if |o.value| < n || n <= 0 then Err(IllegalArgumentException("Target length out of range"))
    else Ok(OidBase(o.value[..n], None))
  }

  /** `tail()`: everything after the first component; a single-component
      OID has no tail. */
  function Tail(o: Oid): (r: Result<Oid>)
    ensures r.Ok? <==> |o.value| > 1
    ensures r.Ok? ==> [o.value[0]] + r.value.value == o.value
    ensures r.Err? ==> r.error.IllegalStateException?
  {
    if |o.value| == 1 then Err(IllegalStateException("Cannot get tail of single element OID"))
    else Ok(OidBase(o.value[1..], None))
  }

  /** `child(c)`: one more component, `c`, at the end. */
  function Child(o: Oid, c: int): (r: Oid)
    ensures |r.value| == |o.value| + 1
    ensures r.value[|o.value|] == c
    ensures Head(r, |o.value|) == Ok(o.(dotted := None))
  {
    OidBase(o.value + [c], None)
  }

  /** `parent()`: absent for a single-component OID, otherwise the OID
      without its last component. */
  function Parent(o: Oid): (r: Option<Oid>)
    ensures r.None? <==> |o.value| == 1
    ensures r.Some? ==> Head(o, |o.value| - 1) == Ok(r.value)
  {
    if |o.value| == 1 then None else Some(Head(o, |o.value| - 1).value)
  }

  /** `relativize(base)`: with no base, a copy of all components; otherwise
      `o` must be a child of `base` and the result is what follows it. */
  function Relativize(o: Oid, base: Option<Oid>): (r: Result<Oid>)
    ensures r.Ok? <==> base.None? || IsChildOf(o, base.value)
    ensures r.Ok? && base.None? ==> r.value.value == o.value
    ensures r.Ok? && base.Some? ==> base.value.value + r.value.value == o.value
  {
    match base
    case None => Ok(OidBase(o.value, None))
    case Some(b) =>
      if !IsChildOf(o, b) then Err(IllegalArgumentException("Target must be a child of the base"))
      else
        assert o.value == b.value + o.value[|b.value|..];
        FromComponents(o.value[|b.value|..])
  }

  // ------------------------------------------------------------ resolve

  /** The first index at or after `i` holding a zero, or `|c|`. */
  function NextZero(c: seq<int>, i: nat): (j: nat)
    requires i <= |c|
    ensures i <= j <= |c|
    ensures j < |c| ==> c[j] == 0
    ensures forall k :: i <= k < j ==> c[k] != 0
    decreases |c| - i
  {
    if i == |c| then i else if c[i] == 0 then i else NextZero(c, i + 1)
  }

  /** The nested loop of `resolve` as written: for each tag, scan forward
      from the current position to the next zero, store the tag there and
      stop without advancing past it. */
  function FillFrom(c: seq<int>, i: nat, tags: seq<int>): (r: seq<int>)
    requires i <= |c|
    ensures |r| == |c|
    decreases |tags|
  {
    if |tags| == 0 then c
    else
      var j := NextZero(c, i);
      if j == |c| then FillFrom(c, j, tags[1..])
      else FillFrom(c[j := tags[0]], j, tags[1..])
  }

  /** `resolve(tags)`: only a non-concrete OID can be resolved. */
  function Resolve(o: Oid, tags: seq<int>): (r: Result<Oid>)
    ensures r.Ok? <==> !IsConcrete(o)
    ensures r.Ok? ==> |r.value.value| == |o.value|
    ensures r.Err? ==> r.error.IllegalStateException?
  {
    if IsConcrete(o) then Err(IllegalStateException("Cannot resolve a concrete OID"))
    else Ok(OidBase(FillFrom(o.value, 0, tags), None))
  }

  /** Reference reading of `resolve`: the zero components, from left to
      right, take the tags in order. */
  function FillZeros(c: seq<int>, tags: seq<int>): seq<int>
  {
    if |c| == 0 then []
    else if c[0] == 0 && |tags| > 0 then [tags[0]] + FillZeros(c[1..], tags[1..])
    else [c[0]] + FillZeros(c[1..], tags)
  }

  /** The number of zero components before position `i`. */
  function ZerosBefore(c: seq<int>, i: nat): nat
    requires i <= |c|
  {
    if i == 0 then 0 else ZerosBefore(c, i - 1) + (if c[i - 1] == 0 then 1 else 0)
  }

  lemma {:induction false} ZerosBeforeStep(c: seq<int>, i: nat)
    requires 0 < |c| && i < |c|
    ensures ZerosBefore(c, i + 1) == (if c[0] == 0 then 1 else 0) + ZerosBefore(c[1..], i)
  {
    if i > 0 {
      ZerosBeforeStep(c, i - 1);
    }
  }

  /** What `FillZeros` does to each position: nonzero components are kept,
      the k-th zero from the left takes the k-th tag, and zeros beyond the
      last tag stay zero. */
  lemma {:induction false} FillZerosPositions(c: seq<int>, tags: seq<int>)
    ensures |FillZeros(c, tags)| == |c|
    ensures forall i :: 0 <= i < |c| && c[i] != 0 ==> FillZeros(c, tags)[i] == c[i]
    ensures forall i :: 0 <= i < |c| && c[i] == 0 ==>
      FillZeros(c, tags)[i] == (if ZerosBefore(c, i) < |tags| then tags[ZerosBefore(c, i)] else 0)
  {
    if |c| > 0 {
      var rest := if c[0] == 0 && |tags| > 0 then tags[1..] else tags;
      FillZerosPositions(c[1..], rest);
      forall i | 0 < i < |c| && c[i] == 0
        ensures FillZeros(c, tags)[i] == (if ZerosBefore(c, i) < |tags| then tags[ZerosBefore(c, i)] else 0)
      {
        ZerosBeforeStep(c, i - 1);
        assert c[1..][i - 1] == c[i];
      }
    }
  }

  lemma {:induction false} FillZerosSkipsNonZero(c: seq<int>, i: nat, j: nat, tags: seq<int>)
    requires i <= j <= |c|
    requires forall k :: i <= k < j ==> c[k] != 0
    ensures FillZeros(c[i..], tags) == c[i..j] + FillZeros(c[j..], tags)
    decreases j - i
  {
    if i < j {
      FillZerosSkipsNonZero(c, i + 1, j, tags);
      assert c[i..][1..] == c[i + 1..];
      assert c[i..j] == [c[i]] + c[i + 1..j];
    }
  }

  /** Unfolding the reference reading at a zero that takes a tag. */
  lemma FillZerosAtZero(d: seq<int>, tags: seq<int>)
    requires |d| > 0 && d[0] == 0 && |tags| > 0
    ensures FillZeros(d, tags) == [tags[0]] + FillZeros(d[1..], tags[1..])
  {
  }

  /** Unfolding the reference reading at a nonzero component. */
  lemma FillZerosAtNonZero(d: seq<int>, tags: seq<int>)
    requires |d| > 0 && d[0] != 0
    ensures FillZeros(d, tags) == [d[0]] + FillZeros(d[1..], tags)
  {
  }

  lemma ConcatAssociates(x: seq<int>, y: seq<int>, z: seq<int>)
    ensures (x + y) + z == x + (y + z)
  {
  }

  /** The slices around a component that has been overwritten. */
  lemma UpdatedSlices(c: seq<int>, j: nat, t: int)
    requires j < |c|
    ensures c[j := t][..j] == c[..j]
    ensures c[j := t][j..][0] == t && c[j := t][j..][1..] == c[j + 1..]
    ensures |c[j..]| > 0 && c[j..][0] == c[j] && c[j..][1..] == c[j + 1..]
  {
  }

  lemma PrefixSplits(c: seq<int>, i: nat, j: nat)
    requires i <= j <= |c|
    ensures c[..j] == c[..i] + c[i..j]
  {
  }

  /** Storing the first tag at the first zero at or after `i`, then
      filling the rest from there, is filling from `i`. */
  lemma FillZerosStoreStep(c: seq<int>, c': seq<int>, i: nat, j: nat, tags: seq<int>)
    requires i <= j < |c| && c[j] == 0 && |tags| > 0 && tags[0] != 0
    requires FillZeros(c[i..], tags) == c[i..j] + FillZeros(c[j..], tags)
    requires c' == c[j := tags[0]]
    ensures c'[..j] + FillZeros(c'[j..], tags[1..]) == c[..i] + FillZeros(c[i..], tags)
  {
    var t := tags[0];
    var a := FillZeros(c[j + 1..], tags[1..]);
    UpdatedSlices(c, j, t);
    PrefixSplits(c, i, j);
    FillZerosAtZero(c[j..], tags);
    FillZerosAtNonZero(c'[j..], tags[1..]);
    calc {
      c'[..j] + FillZeros(c'[j..], tags[1..]);
      (c[..i] + c[i..j]) + ([t] + a);
      { ConcatAssociates(c[..i], c[i..j], [t] + a); }
      c[..i] + (c[i..j] + ([t] + a));
      c[..i] + (c[i..j] + FillZeros(c[j..], tags));
      c[..i] + FillZeros(c[i..], tags);
    }
  }

  lemma FillZerosAtEnd(c: seq<int>, tags: seq<int>)
    ensures c[..|c|] + FillZeros(c[|c|..], tags) == c
  {
    assert c[|c|..] == [];
    assert c[..|c|] == c;
  }

  /** When no zero is left at or after `i`, filling from `i` keeps the rest. */
  lemma FillZerosNoneLeft(c: seq<int>, i: nat, tags: seq<int>)
    requires i <= |c|
    requires forall k :: i <= k < |c| ==> c[k] != 0
    ensures c[..i] + FillZeros(c[i..], tags) == c
  {
    FillZerosSkipsNonZero(c, i, |c|, tags);
    assert c[|c|..] == [];
    assert c[i..|c|] == c[i..];
    assert c == c[..i] + c[i..];
  }

  /** With nonzero tags the loop as written agrees with the reference
      reading from position `i` on. */
  lemma {:induction false} FillFromIsFillZeros(c: seq<int>, i: nat, tags: seq<int>)
    requires i <= |c|
    requires 0 !in tags
    ensures FillFrom(c, i, tags) == c[..i] + FillZeros(c[i..], tags)
    decreases |tags|, 1
  {
    if |tags| == 0 {
      FillZerosWithoutTags(c[i..]);
      assert c == c[..i] + c[i..];
    } else if NextZero(c, i) == |c| {
      FillFromPastLastZero(c, i, tags);
    } else {
      FillFromAtZero(c, i, tags);
    }
  }

  /** The case of `FillFromIsFillZeros` where no zero is left: the tag is
      dropped and nothing changes. */
  lemma {:induction false} FillFromPastLastZero(c: seq<int>, i: nat, tags: seq<int>)
    requires i <= |c| && |tags| > 0 && NextZero(c, i) == |c|
    requires 0 !in tags
    ensures FillFrom(c, i, tags) == c[..i] + FillZeros(c[i..], tags)
    decreases |tags|, 0
  {
    var j := |c|;
    calc {
      FillFrom(c, i, tags);
      FillFrom(c, j, tags[1..]);
      { FillFromIsFillZeros(c, j, tags[1..]); }
      c[..j] + FillZeros(c[j..], tags[1..]);
      { FillZerosAtEnd(c, tags[1..]); }
      c;
      { FillZerosNoneLeft(c, i, tags); }
      c[..i] + FillZeros(c[i..], tags);
    }
  }

  /** The case of `FillFromIsFillZeros` where a zero is found: the first
      tag is stored there and the rest are placed from there on. */
  lemma {:induction false} FillFromAtZero(c: seq<int>, i: nat, tags: seq<int>)
    requires i <= |c| && |tags| > 0 && NextZero(c, i) < |c|
    requires 0 !in tags
    ensures FillFrom(c, i, tags) == c[..i] + FillZeros(c[i..], tags)
    decreases |tags|, 0
  {
    var j := NextZero(c, i);
    var c' := c[j := tags[0]];
    calc {
      FillFrom(c, i, tags);
      FillFrom(c', j, tags[1..]);
      { FillFromIsFillZeros(c', j, tags[1..]); }
      c'[..j] + FillZeros(c'[j..], tags[1..]);
      { FillZerosSkipsNonZero(c, i, j, tags);
        FillZerosStoreStep(c, c', i, j, tags); }
      c[..i] + FillZeros(c[i..], tags);
    }
  }

  lemma {:induction false} FillZerosWithoutTags(c: seq<int>)
    ensures FillZeros(c, []) == c
  {
    if |c| > 0 {
      calc {
        FillZeros(c, []);
        [c[0]] + FillZeros(c[1..], []);
        { FillZerosWithoutTags(c[1..]); }
        [c[0]] + c[1..];
        c;
      }
    }
  }

  /** The tags with every zero left out, in order. */
  function NonZero(tags: seq<int>): (r: seq<int>)
    ensures 0 !in r && |r| <= |tags|
    ensures forall x :: x in r <==> x in tags && x != 0
    ensures 0 !in tags ==> r == tags
  {
    if |tags| == 0 then []
    else (if tags[0] == 0 then [] else [tags[0]]) + NonZero(tags[1..])
  }

  /** The loop's scan is idempotent: starting it at the next zero instead
      of at `i` changes nothing. */
  lemma FillFromAtNextZero(c: seq<int>, i: nat, tags: seq<int>)
    requires i <= |c|
    ensures FillFrom(c, NextZero(c, i), tags) == FillFrom(c, i, tags)
  {
    var j := NextZero(c, i);
    assert NextZero(c, j) == j;
  }

  /** A zero tag is stored into a slot that already holds zero and does
      not move the scan on, so the loop ignores it: `resolve` with any
      tags is `resolve` with the nonzero ones. */
  lemma {:induction false} FillFromDropsZeroTags(c: seq<int>, i: nat, tags: seq<int>)
    requires i <= |c|
    ensures FillFrom(c, i, tags) == FillFrom(c, i, NonZero(tags))
    decreases |tags|
  {
    if |tags| > 0 {
      var j := NextZero(c, i);
      var rest := tags[1..];
      if tags[0] == 0 {
        assert NonZero(tags) == NonZero(rest);
        if j < |c| {
          assert c[j := 0] == c;
        }
        calc {
          FillFrom(c, i, tags);
          FillFrom(c, j, rest);
          { FillFromDropsZeroTags(c, j, rest); }
          FillFrom(c, j, NonZero(rest));
          { FillFromAtNextZero(c, i, NonZero(rest)); }
          FillFrom(c, i, NonZero(rest));
        }
      } else {
        var nz := NonZero(tags);
        assert nz == [tags[0]] + NonZero(rest);
        assert nz[0] == tags[0] && nz[1..] == NonZero(rest);
        var c' := if j == |c| then c else c[j := tags[0]];
        calc {
          FillFrom(c, i, tags);
          FillFrom(c', j, rest);
          { FillFromDropsZeroTags(c', j, rest); }
          FillFrom(c', j, NonZero(rest));
          FillFrom(c, i, nz);
        }
      }
    }
  }

  /** `resolve` keeps the length and every nonzero component, and gives
      the k-th zero from the left the k-th nonzero tag; zero tags are
      skipped, and zeros beyond the last nonzero tag stay zero. */
  lemma ResolveFillsZerosInOrder(o: Oid, tags: seq<int>)
    requires !IsConcrete(o)
    ensures Resolve(o, tags).Ok?
    ensures var r := Resolve(o, tags).value.value;
      var t := NonZero(tags);
      && |r| == |o.value|
      && (forall i :: 0 <= i < |r| && o.value[i] != 0 ==> r[i] == o.value[i])
      && (forall i :: 0 <= i < |r| && o.value[i] == 0 ==>
            r[i] == (if ZerosBefore(o.value, i) < |t| then t[ZerosBefore(o.value, i)] else 0))
  {
    var t := NonZero(tags);
    FillFromFromStart(o.value, tags);
    assert Resolve(o, tags) == Ok(OidBase(FillZeros(o.value, t), None));
    FillZerosPositions(o.value, t);
  }

  /** The whole loop, from the first component, is the reference reading
      with the nonzero tags. */
  lemma FillFromFromStart(c: seq<int>, tags: seq<int>)
    ensures FillFrom(c, 0, tags) == FillZeros(c, NonZero(tags))
  {
    FillFromDropsZeroTags(c, 0, tags);
    FillFromIsFillZeros(c, 0, NonZero(tags));
    assert c[..0] == [] && c[0..] == c;
  }

  // ------------------------------------------------------------ laws

  /** `oid.child(c).relativize(oid)` is the single component `c`. */
  lemma RelativizeChild(o: Oid, c: int)
    ensures Relativize(Child(o, c), Some(o)) == Ok(OidBase([c], None))
  {
    var ch := Child(o, c);
    assert ch.value[..|o.value|] == o.value;
    assert ch.value[|o.value|..] == [c];
  }

  /** The parent of a child is the original OID. */
  lemma ParentOfChild(o: Oid, c: int)
    ensures Parent(Child(o, c)) == Some(o.(dotted := None))
  {
    assert (o.value + [c])[..|o.value|] == o.value;
  }

  /** The tail of a child is the child of the tail. */
  lemma TailOfChild(o: Oid, c: int)
    requires |o.value| > 1
    ensures Tail(Child(o, c)) == Ok(Child(Tail(o).value, c))
  {
    assert (o.value + [c])[1..] == o.value[1..] + [c];
  }

  /** Parsing and printing: an OID built from a string prints as that string. */
  lemma ToStringOfParse(s: string)
    requires Parse(s).Ok?
    ensures ToString(Parse(s).value) == s
  {
  }

  lemma {:induction false} ParseAllOfComponentStrings(value: seq<int>)
    requires forall i :: 0 <= i < |value| ==> IsInt32(value[i])
    ensures ParseAll(ComponentStrings(value)) == Ok(value)
  {
    if |value| > 0 {
      var parts := ComponentStrings(value);
      var rest := ComponentStrings(value[1..]);
      assert parts[1..] == rest;
      ParseIntOfIntToString(value[0]);
      assert ParseInt(parts[0]) == Ok(value[0]);
      ParseAllOfComponentStrings(value[1..]);
      assert ParseAll(parts) == Ok([value[0]] + value[1..]);
      assert [value[0]] + value[1..] == value;
    }
  }

  /** The dotted form of 32-bit components parses back to the same components. */
  lemma ParseOfToString(o: Oid)
    requires o.dotted.None?
    requires forall i :: 0 <= i < |o.value| ==> IsInt32(o.value[i])
    ensures Parse(ToString(o)).Ok?
    ensures Parse(ToString(o)).value.value == o.value
  {
    var parts := ComponentStrings(o.value);
    SplitJoin(parts, '.');
    ParseAllOfComponentStrings(o.value);
  }
}

=== FILE: proto_util.dfy ===
/** Helpers for outcomes and message envelopes (`ProtoUtil`): stamping an
    outcome with its start time and completing it as a success or failure,
    building a response envelope for a request, and deriving a message
    field name from a message class name. The clock is a parameter (`now`,
    in milliseconds). */
module ProtoUtil {
  import opened Common
  import opened JavaStrings

  /** Error codes the modelled code names; any other code is `OtherError`.
      `OK` and `NONE` are distinct values of the same enum. */
  datatype ErrorCode = OK | NONE | ACCESS_DENIED | INVALID_USERNAME | UNKNOWN_GROUP | OtherError(name: string)

  /** The `Outcome` message. Unset string fields are empty, as in proto3.
      `None` marks an error code that was never set: a proto3 enum field has
      no presence and reads as its zero value when unset, so telling the two
      apart is a choice of this model. */
  datatype Outcome = Outcome(
    result: bool,
    time: int,
    action: string,
    comment: string,
    exception: string,
    error: Option<ErrorCode>)

  const EmptyOutcome: Outcome := Outcome(false, 0, "", "", "", None)

  /** `begin()`: a new outcome whose time is the start time. */
  function Begin(now: int): (r: Outcome)
    ensures r.time == now && !r.result && r.error.None?
    ensures r.(time := 0) == EmptyOutcome
  {
    EmptyOutcome.(time := now)
  }

  /** `begin(action)`; protobuf setters refuse null. */
  function BeginAction(now: int, action: Option<string>): (r: Result<Outcome>)
    ensures r.Err? <==> action.None?
    ensures r.Ok? ==> r.value == Begin(now).(action := action.value)
  {
    match action
    case None => Err(NullPointerException)
    case Some(a) => Ok(Begin(now).(action := a))
  }

  /** `success(outcome)`: result true, time becomes the elapsed time. */
  function Success(o: Outcome, now: int): (r: Outcome)
    ensures r.result && r.time == now - o.time
    ensures r.(result := o.result, time := o.time) == o
  {
    o.(result := true, time := now - o.time)
  }

  /** `success(outcome, comment)`. */
  function SuccessComment(o: Outcome, now: int, comment: Option<string>): (r: Result<Outcome>)
    ensures r.Err? <==> comment.None?
    ensures r.Ok? ==> r.value.result && r.value.time == now - o.time && r.value.comment == comment.value
    ensures r.Ok? ==> r.value.(result := o.result, time := o.time, comment := o.comment) == o
  {
    match comment
    case None => Err(NullPointerException)
    case Some(c) => Ok(o.(result := true, time := now - o.time, comment := c))
  }

  /** `failure(outcome)`: result false and the time cleared. */
  function Failure(o: Outcome): (r: Outcome)
    ensures !r.result && r.time == 0
    ensures r.(result := o.result, time := o.time) == o
  {
    o.(result := false, time := 0)
  }

  /** `failure(outcome, comment)`: the comment, then `failure(outcome)`. */
  function FailureComment(o: Outcome, comment: Option<string>): (r: Result<Outcome>)
    ensures r.Err? <==> comment.None?
    ensures r.Ok? ==> !r.value.result && r.value.time == 0 && r.value.comment == comment.value
    ensures r.Ok? ==> r.value.(result := o.result, time := o.time, comment := o.comment) == o
  {
    match comment
    case None => Err(NullPointerException)
    case Some(c) => Ok(Failure(o.(comment := c)))
  }

  /** `failure(outcome, cause)`: a null cause is refused; otherwise the
      printed stack trace, supplied here as `trace`, becomes the exception
      text. */
  function FailureCause(o: Outcome, cause: Option<string>): (r: Result<Outcome>)
    ensures r.Err? <==> cause.None?
    ensures r.Err? ==> r.error.IllegalArgumentException?
    ensures r.Ok? ==> !r.value.result && r.value.time == 0 && r.value.exception == cause.value
    ensures r.Ok? ==> r.value.(result := o.result, time := o.time, exception := o.exception) == o
  {
    match cause
    case None => Err(IllegalArgumentException(""))
    case Some(trace) => Ok(Failure(o.(exception := trace)))
  }

  /** `failure(outcome, code)`: elapsed time, result false, the error code. */
  function FailureCode(o: Outcome, now: int, code: ErrorCode): (r: Outcome)
    ensures !r.result && r.time == now - o.time && r.error == Some(code)
    ensures r.(result := o.result, time := o.time, error := o.error) == o
  {
    o.(time := now - o.time, result := false, error := Some(code))
  }

  /** `failure(code)`: a fresh outcome with only result and error set. */
  function FailureOnlyCode(code: ErrorCode): (r: Outcome)
    ensures !r.result && r.error == Some(code) && r.time == 0
    ensures r.(error := None) == EmptyOutcome
  {
    EmptyOutcome.(result := false, error := Some(code))
  }

  /** `complete(outcome)`: only the elapsed time. */
  function Complete(o: Outcome, now: int): (r: Outcome)
    ensures r.time == now - o.time && r.(time := o.time) == o
  {
    o.(time := now - o.time)
  }

  /** `complete(outcome, code)`. */
  function CompleteCode(o: Outcome, now: int, code: ErrorCode): (r: Outcome)
    ensures r.result <==> code == OK
    ensures r.time == now - o.time
    ensures code == OK ==> r.error == o.error
    ensures code != OK ==> r.error == Some(code)
    ensures r.(result := o.result, time := o.time, error := o.error) == o
  {
    if code == OK then Success(o, now) else FailureCode(o, now, code)
  }

  /** An action begun at `start` and completed at `now` records the time it
      took, whatever way it is completed with a code. */
  lemma ElapsedTime(start: int, now: int, code: ErrorCode)
    ensures Success(Begin(start), now).time == now - start
    ensures CompleteCode(Begin(start), now, code).time == now - start
    ensures CompleteCode(Begin(start), now, code).result <==> code == OK
  {
  }

  // ------------------------------------------------------------ envelopes

  /** The envelope fields of `MSG.Message`; 0 means unset. */
  datatype Message = Message(id: int, to: int, from: int)

  /** `rs(id)`: a new response with only the sequence ID. */
  function Rs(id: int): (r: Message)
    ensures r.id == id && r.to == 0 && r.from == 0
  {
    Message(id, 0, 0)
  }

  /** `rs(rq)`: the request's ID, sent back to whoever sent it and from
      whoever it was addressed to, each only when set. */
  function RsFor(rq: Message): (r: Message)
    ensures r.id == rq.id
    ensures r.to == rq.from && r.from == rq.to
  {
    var rs := Rs(rq.id);
    var rs := if rq.from != 0 then rs.(to := rq.from) else rs;
    if rq.to != 0 then rs.(from := rq.to) else rs
  }

  /** Answering an answer returns the original envelope. */
  lemma RsForInvolution(rq: Message)
    ensures RsFor(RsFor(rq)) == rq
  {
  }

  // ------------------------------------------------------------ field names

  /** The body of `CaseFormat.UPPER_CAMEL.to(LOWER_UNDERSCORE, s)`: every
      ASCII capital after the first character starts a new word, words are
      joined with `_`, and everything is lower-cased. */
  function CamelToUnderscore(s: string): string
  {
    if |s| == 0 then "" else [AsciiLower(s[0])] + WordsToUnderscore(s[1..])
  }

  function WordsToUnderscore(s: string): string
  {
    if |s| == 0 then ""
    else (if IsAsciiUpper(s[0]) then "_" + [AsciiLower(s[0])] else [s[0]]) + WordsToUnderscore(s[1..])
  }

  predicate NoCapitals(s: string)
  {
    forall i :: 0 <= i < |s| ==> !IsAsciiUpper(s[i])
  }

  /** The conversion leaves no capital behind and never shortens its input. */
  lemma {:induction false} WordsToUnderscoreShape(s: string)
    ensures NoCapitals(WordsToUnderscore(s)) && |WordsToUnderscore(s)| >= |s|
    decreases |s|
  {
    if |s| > 0 {
      WordsToUnderscoreShape(s[1..]);
    }
  }

  lemma CamelToUnderscoreShape(s: string)
    ensures NoCapitals(CamelToUnderscore(s)) && |CamelToUnderscore(s)| >= |s|
  {
    if |s| > 0 {
      WordsToUnderscoreShape(s[1..]);
    }
  }

  /** The reverse conversion, lower_underscore to UpperCamel. */
  function UnderscoreToCamel(s: string): string
  {
    if |s| == 0 then "" else [AsciiUpper(s[0])] + UnderscoreToWords(s[1..])
  }

  function UnderscoreToWords(s: string): string
  {
    if |s| == 0 then ""
    else if s[0] == '_' && |s| >= 2 then [AsciiUpper(s[1])] + UnderscoreToWords(s[2..])
    else [s[0]] + UnderscoreToWords(s[1..])
  }

  lemma {:induction false} WordsRoundTrip(s: string)
    requires '_' !in s
    ensures UnderscoreToWords(WordsToUnderscore(s)) == s
    decreases |s|
  {
    if |s| > 0 {
      WordsRoundTrip(s[1..]);
      var rest := WordsToUnderscore(s[1..]);
      if IsAsciiUpper(s[0]) {
        var w := "_" + [AsciiLower(s[0])] + rest;
        assert w[0] == '_' && w[1] == AsciiLower(s[0]) && w[2..] == rest;
      } else {
        var w := [s[0]] + rest;
        assert w[0] == s[0] && w[1..] == rest;
      }
      assert s == [s[0]] + s[1..];
    }
  }

  /** An UpperCamel word sequence without underscores survives the
      conversion to lower_underscore and back. */
  lemma CamelRoundTrip(s: string)
    requires |s| > 0 && IsAsciiUpper(s[0]) && '_' !in s
    ensures UnderscoreToCamel(CamelToUnderscore(s)) == s
  {
    WordsRoundTrip(s[1..]);
    var c := CamelToUnderscore(s);
    assert c[0] == AsciiLower(s[0]) && c[1..] == WordsToUnderscore(s[1..]);
    assert s == [s[0]] + s[1..];
  }

  /** `convertMessageClassToFieldName`: the character at index 2 must exist
      and be `_`; the prefix through the first `_` is lower-cased and the
      rest converted from UpperCamel to lower_underscore. */
  function MessageClassToFieldName(name: string): (r: Result<string>)
    ensures |name| < 3 <==> r == Err(IndexOutOfBoundsException)
    ensures r.Ok? <==> |name| >= 3 && name[2] == '_'
    ensures r.Ok? ==> NoCapitals(r.value)
    ensures r.Ok? ==> |r.value| >= |name|
  {
    if |name| < 3 then Err(IndexOutOfBoundsException)
    else if name[2] != '_' then Err(IllegalArgumentException(""))
    else
      var k := IndexOf(name, '_');
      CamelToUnderscoreShape(name[k + 1..]);
      Ok(Lower(name[..k + 1]) + CamelToUnderscore(name[k + 1..]))
  }

  /** When neither of the first two characters is `_`, the prefix is the
      first three characters. */
  lemma FieldNameOfPrefixedName(name: string)
    requires |name| >= 3 && name[0] != '_' && name[1] != '_' && name[2] == '_'
    ensures MessageClassToFieldName(name) == Ok(Lower(name[..3]) + CamelToUnderscore(name[3..]))
  {
    assert IndexOf(name, '_') == 2;
  }

  /** The class name a field name came from, for the `XX_UpperCamel` shape:
      the two-letter prefix upper-cased and the rest converted back. */
  function FieldNameToMessageClass(field: string): string
    requires |field| >= 3
  {
    [AsciiUpper(field[0]), AsciiUpper(field[1]), field[2]] + UnderscoreToCamel(field[3..])
  }

  /** Class names of the form `XX_UpperCamel` (capital letters before the
      `_`, no further `_`) map to field names they can be recovered from. */
  lemma FieldNameRoundTrip(name: string)
    requires |name| >= 4 && IsAsciiUpper(name[0]) && IsAsciiUpper(name[1]) && name[2] == '_'
    requires IsAsciiUpper(name[3]) && '_' !in name[3..]
    ensures MessageClassToFieldName(name).Ok?
    ensures FieldNameToMessageClass(MessageClassToFieldName(name).value) == name
  {
    FieldNameOfPrefixedName(name);
    var rest := name[3..];
    var f := Lower(name[..3]) + CamelToUnderscore(rest);
    PrefixRestored(name[..3], f);
    CamelRoundTrip(rest);
    assert f[3..] == CamelToUnderscore(rest);
    assert name == name[..3] + rest;
  }

  /** Upper-casing the first two characters of a lower-cased `XX_` prefix
      gives the prefix back. */
  lemma PrefixRestored(p: string, f: string)
    requires |p| == 3 && IsAsciiUpper(p[0]) && IsAsciiUpper(p[1]) && p[2] == '_'
    requires |f| >= 3 && f[..3] == Lower(p)
    ensures [AsciiUpper(f[0]), AsciiUpper(f[1]), f[2]] == p
  {
    assert f[0] == f[..3][0] && f[1] == f[..3][1] && f[2] == f[..3][2];
  }

  lemma {:induction false} WordsAppend(a: string, b: string)
    ensures WordsToUnderscore(a + b) == WordsToUnderscore(a) + WordsToUnderscore(b)
    decreases |a|
  {
    if |a| > 0 {
      WordsAppend(a[1..], b);
      assert (a + b)[1..] == a[1..] + b;
    } else {
      assert a + b == b;
    }
  }

  lemma {:induction false} WordsWithoutCapitals(s: string)
    requires NoCapitals(s)
    ensures WordsToUnderscore(s) == s
    decreases |s|
  {
    if |s| > 0 {
      WordsWithoutCapitals(s[1..]);
      assert s == [s[0]] + s[1..];
    }
  }

  /** Two capitalised words become two lower-case words joined by `_`. */
  lemma CamelTwoWords(a: char, x: string, b: char, y: string)
    requires IsAsciiUpper(a) && IsAsciiUpper(b) && NoCapitals(x) && NoCapitals(y)
    ensures CamelToUnderscore([a] + x + [b] + y) == [AsciiLower(a)] + x + "_" + [AsciiLower(b)] + y
  {
    var s := [a] + x + [b] + y;
    assert s[1..] == x + ([b] + y);
    WordsAppend(x, [b] + y);
    WordsWithoutCapitals(x);
    WordsWithoutCapitals(y);
    assert ([b] + y)[1..] == y;
  }

  /** The example of the documentation comment: `RQ_ExampleMessage` gives
      `rq_example_message`. */
  lemma ExamplePrefix(name: string)
    requires name == "RQ_ExampleMessage"
    ensures Lower(name[..3]) == "rq_"
  {
    var prefix := Lower(name[..3]);
    assert name[..3] == "RQ_";
    assert |prefix| == 3 && prefix[0] == 'r' && prefix[1] == 'q' && prefix[2] == '_';
  }

  lemma ExampleWords(name: string)
    requires name == "RQ_ExampleMessage"
    ensures CamelToUnderscore(name[3..]) == "example_message"
  {
    ExampleSuffix(name);
    ExampleCamel();
  }

  lemma ExampleSuffix(name: string)
    requires name == "RQ_ExampleMessage"
    ensures name[3..] == ['E'] + "xample" + ['M'] + "essage"
  {
  }

  lemma ExampleCamel()
    ensures CamelToUnderscore(['E'] + "xample" + ['M'] + "essage") == "example_message"
  {
    CamelTwoWords('E', "xample", 'M', "essage");
    assert ['e'] + "xample" == "example";
    assert ['m'] + "essage" == "message";
    assert "example" + "_" + "message" == "example_message";
  }

  lemma ExampleFieldName(name: string)
    requires name == "RQ_ExampleMessage"
    ensures MessageClassToFieldName(name) == Ok("rq_example_message")
  {
    ExamplePrefix(name);
    ExampleWords(name);
    assert "rq_" + "example_message" == "rq_example_message";
    FieldNameOfPrefixedName(name);
  }
}

=== FILE: st_object.dfy ===
/** The listener bookkeeping and event propagation shared by every state-tree
    object (`AbstractSTObject`). An object creates its event bus lazily when
    the first listener arrives and drops it when the count returns to zero;
    a change event is posted on the bus of the object where it happens and
    then on the bus of every ancestor up to the root. */
module StObjects {
  import opened Common
  import opened Oids

  // ------------------------------------------------------------ listeners

  /** The `bus` field (present or null) and the `listeners` counter. Which
      listeners the bus holds is the event-bus library's business. */
  datatype Listeners = Listeners(bus: bool, count: int)

  const NoListeners: Listeners := Listeners(false, 0)

  /** The bookkeeping every object keeps: a bus exactly while some listener
      is registered. */
  predicate Consistent(l: Listeners)
  {
    l.count >= 0 && (l.bus <==> l.count > 0)
  }

  /** `addListener`: create the bus if needed, register, count up. */
  function AddListener(l: Listeners): (r: Listeners)
    ensures r.bus && r.count == l.count + 1
    ensures Consistent(l) ==> Consistent(r)
  {
    Listeners(true, l.count + 1)
  }

  /** `removeListener`: count down only when there is a bus; drop the bus
      when the counter reads zero. */
  function RemoveListener(l: Listeners): (r: Listeners)
    ensures r.count == if l.bus then l.count - 1 else l.count
    ensures r.bus <==> l.bus && r.count != 0
    ensures Consistent(l) ==> Consistent(r)
    ensures Consistent(l) && !l.bus ==> r == l
  {
    var count := if l.bus then l.count - 1 else l.count;
    Listeners(l.bus && count != 0, count)
  }

  /** Removing the listener just added restores the previous state. */
  lemma RemoveUndoesAdd(l: Listeners)
    requires Consistent(l)
    ensures RemoveListener(AddListener(l)) == l
  {
  }

  datatype ListenerOp = Add | Remove

  function ApplyAll(l: Listeners, ops: seq<ListenerOp>): Listeners
    decreases |ops|
  {
    if |ops| == 0 then l
    else ApplyAll(if ops[0].Add? then AddListener(l) else RemoveListener(l), ops[1..])
  }

  function CountOps(ops: seq<ListenerOp>, op: ListenerOp): (r: nat)
    ensures r <= |ops|
  {
    if |ops| == 0 then 0 else (if ops[0] == op then 1 else 0) + CountOps(ops[1..], op)
  }

  /** Every prefix removes no more listeners than it added. */
  predicate Matched(ops: seq<ListenerOp>)
  {
    forall k :: 0 <= k <= |ops| ==> CountOps(ops[..k], Remove) <= CountOps(ops[..k], Add)
  }

  /** Starting without a bus, whatever the order of adds and removes, the
      object holds a bus exactly while its counter is positive. */
  lemma {:induction false} ConsistentAfterAnyOps(l: Listeners, ops: seq<ListenerOp>)
    requires Consistent(l)
    ensures Consistent(ApplyAll(l, ops))
    decreases |ops|
  {
    if |ops| > 0 {
      ConsistentAfterAnyOps(if ops[0].Add? then AddListener(l) else RemoveListener(l), ops[1..]);
    }
  }

  lemma {:induction false} CountOpsSnoc(ops: seq<ListenerOp>, op: ListenerOp, x: ListenerOp)
    ensures CountOps(ops + [x], op) == CountOps(ops, op) + (if x == op then 1 else 0)
    decreases |ops|
  {
    if |ops| == 0 {
      assert ops + [x] == [x];
    } else {
      CountOpsSnoc(ops[1..], op, x);
      assert (ops + [x])[1..] == ops[1..] + [x];
    }
  }

  lemma {:induction false} ApplyAllSnoc(l: Listeners, ops: seq<ListenerOp>, x: ListenerOp)
    ensures ApplyAll(l, ops + [x]) == (if x.Add? then AddListener(ApplyAll(l, ops)) else RemoveListener(ApplyAll(l, ops)))
    decreases |ops|
  {
    if |ops| == 0 {
      assert ops + [x] == [x];
      assert [x][1..] == [];
    } else {
      ApplyAllSnoc(if ops[0].Add? then AddListener(l) else RemoveListener(l), ops[1..], x);
      assert (ops + [x])[1..] == ops[1..] + [x];
    }
  }

  /** When every remove is matched by an earlier add, the counter of a fresh
      object is the number of adds minus the number of removes. */
  lemma {:induction false} CounterCountsListeners(ops: seq<ListenerOp>)
    requires Matched(ops)
    ensures ApplyAll(NoListeners, ops).count == CountOps(ops, Add) - CountOps(ops, Remove)
    decreases |ops|
  {
    if |ops| > 0 {
      var init := ops[..|ops| - 1];
      var x := ops[|ops| - 1];
      assert ops == init + [x];
      assert Matched(init) by {
        forall k | 0 <= k <= |init|
          ensures CountOps(init[..k], Remove) <= CountOps(init[..k], Add)
        {
          assert init[..k] == ops[..k];
        }
      }
      CounterCountsListeners(init);
      ConsistentAfterAnyOps(NoListeners, init);
      ApplyAllSnoc(NoListeners, init, x);
      CountOpsSnoc(init, Add, x);
      CountOpsSnoc(init, Remove, x);
      assert ops[..|ops|] == ops;
      if x == Remove {
        assert CountOps(init, Remove) < CountOps(init, Add);
      }
    } else {
      assert ops == [];
    }
  }

  // ------------------------------------------------------------ objects and events

  /** A state-tree object: its id, its listeners, and its parent (null for
      a root). */
  datatype StObject = StObject(id: int, listeners: Listeners, parent: Option<StObject>)

  /** The object's OID, fixed by the constructor: `AbsoluteOid.newOid(id)`
      for a root, the parent's OID extended by `id` otherwise. */
  function ObjectOid(o: StObject): (r: Oid)
    ensures |r.value| == Depth(o)
    ensures r.value[|r.value| - 1] == o.id
  {
    match o.parent
    case None => OidBase([o.id], None)
    case Some(p) => Child(ObjectOid(p), o.id)
  }

  /** Number of objects from `o` up to its root. */
  function Depth(o: StObject): (r: nat)
    ensures r >= 1
  {
    match o.parent
    case None => 1
    case Some(p) => 1 + Depth(p)
  }

  /** The change events the objects fire: the source object and the objects
      the event is about are named by OID. */
  datatype Event =
    | AttributeValueChanged(attribute: Oid, oldValue: Option<string>, newValue: Option<string>)
    | CollectionAdded(document: Oid, newCollection: Oid)
    | CollectionRemoved(document: Oid, oldCollection: Oid)
    | DocumentAddedToCollection(collection: Oid, newDocument: Oid)
    | DocumentAddedToDocument(document: Oid, newDocument: Oid)
    | DocumentRemovedFromCollection(collection: Oid, oldDocument: Oid)
    | DocumentRemovedFromDocument(document: Oid, oldDocument: Oid)

  /** A post of `event` to the bus of the object with OID `target`. */
  datatype Post = Post(target: Oid, event: Event)

  /** Each `fire...Event` method: post on this object's bus when it has one,
      then let the parent fire the same event. The posts are returned in the
      order they are submitted to the pool. */
  function Fire(o: StObject, e: Event): (r: seq<Post>)
    ensures |r| <= Depth(o)
    ensures forall i :: 0 <= i < |r| ==> r[i].event == e
  {
    var here := if o.listeners.bus then [Post(ObjectOid(o), e)] else [];
    match o.parent
    case None => here
    case Some(p) => here + Fire(p, e)
  }

  /** Every target lies on the way from the object with OID `oid` to the
      root, and the targets climb strictly towards the root. */
  predicate Climbs(posts: seq<Post>, oid: seq<int>)
  {
    (forall i :: 0 <= i < |posts| ==>
       |posts[i].target.value| <= |oid| && posts[i].target.value == oid[..|posts[i].target.value|]) &&
    (forall i, j :: 0 <= i < j < |posts| ==> |posts[j].target.value| < |posts[i].target.value|)
  }

  lemma ClimbsBelow(posts: seq<Post>, pv: seq<int>, me: seq<int>)
    requires Climbs(posts, pv) && |pv| < |me| && pv == me[..|pv|]
    ensures Climbs(posts, me)
    ensures forall i :: 0 <= i < |posts| ==> |posts[i].target.value| < |me|
  {
    forall i | 0 <= i < |posts|
      ensures posts[i].target.value == me[..|posts[i].target.value|]
    {
      var t := posts[i].target.value;
      assert t == pv[..|t|];
      assert pv[..|t|] == me[..|t|];
    }
  }

  lemma ClimbsCons(p: Post, posts: seq<Post>, me: seq<int>)
    requires p.target.value == me && Climbs(posts, me)
    requires forall i :: 0 <= i < |posts| ==> |posts[i].target.value| < |me|
    ensures Climbs([p] + posts, me)
  {
    var r := [p] + posts;
    assert forall i :: 1 <= i < |r| ==> r[i] == posts[i - 1];
  }

  /** A child's OID is its parent's followed by its own id, so the
      parent's OID is a proper prefix of the child's. */
  lemma ParentOidIsPrefix(o: StObject)
    requires o.parent.Some?
    ensures ObjectOid(o).value == ObjectOid(o.parent.value).value + [o.id]
    ensures var me := ObjectOid(o).value; var pv := ObjectOid(o.parent.value).value;
      |pv| < |me| && pv == me[..|pv|]
  {
    var me := ObjectOid(o).value;
    var pv := ObjectOid(o.parent.value).value;
    assert me == pv + [o.id];
    assert me[..|pv|] == pv;
  }

  /** Prepending this object's own post, if any, to posts that climb from
      the parent keeps them climbing from this object. */
  lemma ClimbsStep(here: seq<Post>, above: seq<Post>, pv: seq<int>, me: seq<int>)
    requires Climbs(above, pv) && |pv| < |me| && pv == me[..|pv|]
    requires here == [] || (|here| == 1 && here[0].target.value == me)
    ensures Climbs(here + above, me)
    ensures forall i :: 0 <= i < |above| ==> |above[i].target.value| < |me|
  {
    ClimbsBelow(above, pv, me);
    if here == [] {
      assert here + above == above;
    } else {
      assert here + above == [here[0]] + above;
      ClimbsCons(here[0], above, me);
    }
  }

  lemma {:induction false} FireClimbs(o: StObject, e: Event)
    ensures Climbs(Fire(o, e), ObjectOid(o).value)
  {
    match o.parent
    case None =>
    case Some(p) =>
      FireClimbs(p, e);
      ParentOidIsPrefix(o);
      var here := if o.listeners.bus then [Post(ObjectOid(o), e)] else [];
      assert Fire(o, e) == here + Fire(p, e);
      ClimbsStep(here, Fire(p, e), ObjectOid(p).value, ObjectOid(o).value);
  }

  lemma FireHead(o: StObject, e: Event)
    ensures o.listeners.bus <==> |Fire(o, e)| > 0 && Fire(o, e)[0].target == ObjectOid(o)
  {
    match o.parent
    case None =>
    case Some(p) =>
      if !o.listeners.bus {
        FireClimbs(p, e);
        ParentOidIsPrefix(o);
        ClimbsStep([], Fire(p, e), ObjectOid(p).value, ObjectOid(o).value);
        assert Fire(o, e) == Fire(p, e);
      }
  }

  /** Every post goes to the firing object or one of its ancestors, each
      at most once, from the object towards the root; the object's own bus
      comes first exactly when it has one. */
  lemma FireClimbsTowardsRoot(o: StObject, e: Event)
    ensures Climbs(Fire(o, e), ObjectOid(o).value)
    ensures o.listeners.bus <==> |Fire(o, e)| > 0 && Fire(o, e)[0].target == ObjectOid(o)
  {
    FireClimbs(o, e);
    FireHead(o, e);
  }

  /** The objects on the way from `o` to its root, `o` first. */
  function Ancestry(o: StObject): (r: seq<StObject>)
    ensures |r| == Depth(o) && r[0] == o
  {
    match o.parent
    case None => [o]
    case Some(p) => [o] + Ancestry(p)
  }

  /** The number of objects on the way to the root that have a bus. */
  function ListeningCount(chain: seq<StObject>): (r: nat)
    ensures r <= |chain|
  {
    if |chain| == 0 then 0 else (if chain[0].listeners.bus then 1 else 0) + ListeningCount(chain[1..])
  }

  lemma {:induction false} FireCountsListening(o: StObject, e: Event)
    ensures |Fire(o, e)| == ListeningCount(Ancestry(o))
  {
    match o.parent
    case None =>
    case Some(p) =>
      FireCountsListening(p, e);
      assert Ancestry(o)[1..] == Ancestry(p);
  }

  lemma {:induction false} FireReachesListening(o: StObject, e: Event)
    ensures forall a :: a in Ancestry(o) && a.listeners.bus ==> Post(ObjectOid(a), e) in Fire(o, e)
  {
    match o.parent
    case None =>
    case Some(p) =>
      FireReachesListening(p, e);
      assert Ancestry(o) == [o] + Ancestry(p);
      var here := if o.listeners.bus then [Post(ObjectOid(o), e)] else [];
      assert Fire(o, e) == here + Fire(p, e);
  }

  lemma {:induction false} FirePostsOnlyToListening(o: StObject, e: Event)
    ensures forall q :: q in Fire(o, e) ==> exists a :: a in Ancestry(o) && a.listeners.bus && q.target == ObjectOid(a)
  {
    match o.parent
    case None =>
    case Some(p) =>
      FirePostsOnlyToListening(p, e);
      assert Ancestry(o) == [o] + Ancestry(p);
      var here := if o.listeners.bus then [Post(ObjectOid(o), e)] else [];
      assert Fire(o, e) == here + Fire(p, e);
      forall q | q in Fire(o, e)
        ensures exists a :: a in Ancestry(o) && a.listeners.bus && q.target == ObjectOid(a)
      {
        if q in here {
          assert o in Ancestry(o);
        } else {
          var a :| a in Ancestry(p) && a.listeners.bus && q.target == ObjectOid(a);
          assert a in Ancestry(o);
        }
      }
  }

  /** Exactly one post per object with a bus between `o` and the root, and
      an object without a bus forwards without posting. */
  lemma FireReachesEveryListeningAncestor(o: StObject, e: Event)
    ensures |Fire(o, e)| == ListeningCount(Ancestry(o))
    ensures forall a :: a in Ancestry(o) && a.listeners.bus ==> Post(ObjectOid(a), e) in Fire(o, e)
    ensures forall p :: p in Fire(o, e) ==> exists a :: a in Ancestry(o) && a.listeners.bus && p.target == ObjectOid(a)
  {
    FireCountsListening(o, e);
    FireReachesListening(o, e);
    FirePostsOnlyToListening(o, e);
  }

  /** With no bus anywhere on the way to the root nothing is posted. */
  lemma {:induction false} SilentChainPostsNothing(o: StObject, e: Event)
    requires forall a :: a in Ancestry(o) ==> !a.listeners.bus
    ensures Fire(o, e) == []
  {
    match o.parent
    case None =>
    case Some(p) =>
      assert forall a :: a in Ancestry(p) ==> a in Ancestry(o);
      SilentChainPostsNothing(p, e);
  }
}

=== FILE: state_tree.dfy ===
/** Addressing the state tree by relative OID: the `document`, `attribute`
    and `collection` lookups of a collection and the `document` lookup of a
    document container.

    The Java walks the OID one component at a time, creating every missing
    document or collection on the way, and throws as soon as a component has
    the wrong type digit. The decision of what to visit depends only on the
    OID, never on what the tree already holds, so the model splits each
    lookup into a route (the get-or-create steps it performs and how it
    ends) and a walk that performs those steps on a tree. The documents
    created before a failing component stay in the tree, as in the Java. */
module StateTree {
  import opened Common
  import opened Oids
  import opened Documents

  /** The type of an OID component, as `OidUtil.getOidType` reports it. */
  datatype OType = OtypeDocument | OtypeCollection | OtypeAttribute | OtypeOther

  /** The definitions of the type digits are outside the model: the document
      suffix compared with `tag % 10` and the classification used by
      document containers are parameters. */
  datatype Schema = Schema(suffixDocument: int, oidType: int -> OType)

  /** Java's `%` on `int`: the remainder differs from the dividend by a
      multiple of the divisor, is smaller than the divisor in magnitude, and
      takes the sign of the dividend. These three facts fix it uniquely. */
  function JavaRem(a: int, b: int): (r: int)
    requires b > 0
    ensures -b < r < b
    ensures (a - r) % b == 0
    ensures a >= 0 ==> 0 <= r
    ensures a < 0 ==> r <= 0
  {
    var r := if a >= 0 then a % b else -((-a) % b);
    RemainderCongruent(a, b, r);
    r
  }

  /** Both branches of `JavaRem` leave a multiple of the divisor behind. */
  lemma RemainderCongruent(a: int, b: int, r: int)
    requires b > 0
    requires (a >= 0 && r == a % b) || (a < 0 && r == -((-a) % b))
    ensures (a - r) % b == 0
  {
    var n := if a >= 0 then a else -a;
    var q := n / b;
    assert n == q * b + n % b;
    var k := if a >= 0 then q else -q;
    assert a - r == k * b + 0;
    DivModUnique(k, 0, b);
  }

  predicate HasDocumentSuffix(s: Schema, tag: int)
  {
    JavaRem(tag, 10) == s.suffixDocument
  }

  /** One get-or-create call: `document(tag)` or `collection(tag)`. */
  datatype Step = DocumentStep(tag: int) | CollectionStep(tag: int)

  /** How a lookup ends once its steps are done: at the document the last
      step reached, or by handing the rest of the OID to that document's
      own `attribute` or `collection` lookup. */
  datatype Target = AtDocument | ToAttribute(rest: Oid) | ToCollection(rest: Oid)

  datatype Route = Route(steps: seq<Step>, outcome: Result<Target>)

  function StepTags(steps: seq<Step>): (r: seq<int>)
    ensures |r| == |steps|
    ensures forall i :: 0 <= i < |steps| ==> r[i] == steps[i].tag
  {
    if |steps| == 0 then [] else [steps[0].tag] + StepTags(steps[1..])
  }

  /** The steps a walk can take: a collection holds only documents, so a
      collection step never follows a collection. */
  predicate ValidPath(atCollection: bool, steps: seq<Step>)
    decreases |steps|
  {
    |steps| == 0 ||
    match steps[0]
    case DocumentStep(_) => ValidPath(false, steps[1..])
    case CollectionStep(_) => !atCollection && ValidPath(true, steps[1..])
  }

  function Prepend(step: Step, r: Route): Route
  {
    Route([step] + r.steps, r.outcome)
  }

  /** A step for the first component put in front of a route that follows
      the rest of an OID gives a route that follows the whole OID. */
  lemma PrependFollows(step: Step, rest: Route, head: int, tail: seq<int>, whole: seq<int>)
    requires whole == [head] + tail && step.tag == head
    requires |rest.steps| <= |tail| && StepTags(rest.steps) == tail[..|rest.steps|]
    ensures |Prepend(step, rest).steps| <= |whole|
    ensures StepTags(Prepend(step, rest).steps) == whole[..|Prepend(step, rest).steps|]
    ensures |rest.steps| > 0 ==> Prepend(step, rest).steps[|Prepend(step, rest).steps| - 1] == rest.steps[|rest.steps| - 1]
  {
    var steps := [step] + rest.steps;
    assert steps[1..] == rest.steps;
    assert whole[..1 + |rest.steps|] == [head] + tail[..|rest.steps|];
  }

  // ------------------------------------------------------------ routes

  /** `STCollection.document(RelativeOid)`. */
  function CollectionRoute(s: Schema, oid: Oid): (r: Route)
    ensures ValidPath(true, r.steps)
    ensures |r.steps| <= |oid.value|
    ensures StepTags(r.steps) == oid.value[..|r.steps|]
    ensures r.outcome.Ok? ==> r.outcome.value == AtDocument && |r.steps| == |oid.value|
    ensures r.outcome.Ok? ==> IsConcrete(oid) && r.steps[|r.steps| - 1].DocumentStep?
    ensures !IsConcrete(oid) || !HasDocumentSuffix(s, First(oid)) ==> r.outcome.Err? && r.steps == []
    ensures IsConcrete(oid) && HasDocumentSuffix(s, First(oid)) && |oid.value| == 1 ==>
      r == Route([DocumentStep(First(oid))], Ok(AtDocument))
    decreases |oid.value|
  {
    if !IsConcrete(oid) then Route([], Err(RuntimeException("")))
    else if !HasDocumentSuffix(s, First(oid)) then Route([], Err(RuntimeException("Unacceptable document tag")))
    else if Size(oid) == 1 then Route([DocumentStep(First(oid))], Ok(AtDocument))
    else
      var tail := Tail(oid).value;
      var rest := ContainerRoute(s, true, tail);
      PrependFollows(DocumentStep(First(oid)), rest, First(oid), tail.value, oid.value);
      Prepend(DocumentStep(First(oid)), rest)
  }

  /** `STDocumentContainer.document(RelativeOid)`; `collections` tells
      whether the container is also a collection container. */
  function ContainerRoute(s: Schema, collections: bool, oid: Oid): (r: Route)
    ensures ValidPath(false, r.steps)
    ensures |r.steps| <= |oid.value|
    ensures StepTags(r.steps) == oid.value[..|r.steps|]
    ensures r.outcome.Ok? ==> r.outcome.value == AtDocument && |r.steps| == |oid.value|
    ensures r.outcome.Ok? ==> IsConcrete(oid) && r.steps[|r.steps| - 1].DocumentStep?
    ensures !IsConcrete(oid) ==> r == Route([], Err(GenericOidException))
    ensures IsConcrete(oid) && |oid.value| == 1 ==>
      r == (if s.oidType(First(oid)) == OtypeDocument then Route([DocumentStep(First(oid))], Ok(AtDocument))
            else Route([], Err(IllegalArgumentException("Unacceptable document tag"))))
    ensures (IsConcrete(oid) && |oid.value| > 1 && s.oidType(First(oid)) != OtypeDocument &&
             !(collections && s.oidType(First(oid)) == OtypeCollection)) ==> r.outcome.Err? && r.steps == []
    decreases |oid.value|
  {
    if !IsConcrete(oid) then Route([], Err(GenericOidException))
    else if Size(oid) == 1 then
      if s.oidType(First(oid)) == OtypeDocument then Route([DocumentStep(First(oid))], Ok(AtDocument))
      else Route([], Err(IllegalArgumentException("Unacceptable document tag")))
    else
      var tail := Tail(oid).value;
      assert oid.value == [First(oid)] + tail.value;
      match s.oidType(First(oid))
      case OtypeDocument =>
        var rest := ContainerRoute(s, true, tail);
        PrependFollows(DocumentStep(First(oid)), rest, First(oid), tail.value, oid.value);
        Prepend(DocumentStep(First(oid)), rest)
      case OtypeCollection =>
        if collections then
          var rest := CollectionRoute(s, tail);
          PrependFollows(CollectionStep(First(oid)), rest, First(oid), tail.value, oid.value);
          Prepend(CollectionStep(First(oid)), rest)
        else Route([], Err(IllegalArgumentException("OID")))
      case _ => Route([], Err(IllegalArgumentException("OID")))
  }

  /** `STCollection.attribute(RelativeOid)` and `STCollection.collection(RelativeOid)`:
      after the checks, `document(first)` is called and then `tail()`, which
      throws for a single-component OID once the document exists. */
  function CollectionDelegateRoute(s: Schema, oid: Oid, toAttribute: bool): (r: Route)
    ensures ValidPath(true, r.steps)
    ensures !IsConcrete(oid) || !HasDocumentSuffix(s, First(oid)) ==> r.outcome.Err? && r.steps == []
    ensures IsConcrete(oid) && HasDocumentSuffix(s, First(oid)) ==> r.steps == [DocumentStep(First(oid))]
    ensures r.outcome.Ok? <==> IsConcrete(oid) && HasDocumentSuffix(s, First(oid)) && |oid.value| > 1
    ensures r.outcome.Ok? ==> !r.outcome.value.AtDocument? && [First(oid)] + r.outcome.value.rest.value == oid.value
    ensures r.outcome.Ok? ==> r.outcome.value.ToAttribute? == toAttribute
  {
    if !IsConcrete(oid) then Route([], Err(RuntimeException("")))
    else if !HasDocumentSuffix(s, First(oid)) then Route([], Err(RuntimeException("Unacceptable attribute tag")))
    else
      var steps := [DocumentStep(First(oid))];
      match Tail(oid)
      case Err(e) => Route(steps, Err(e))
      case Ok(tail) => Route(steps, Ok(if toAttribute then ToAttribute(tail) else ToCollection(tail)))
  }

  // ------------------------------------------------------------ walking the tree

  datatype Node = DocumentNode(document: Document) | CollectionNode(collection: Collection)

  /** Performs the get-or-create steps from `n`; returns the updated `n` and
      the node the last step reached. */
  function Walk(n: Node, steps: seq<Step>): (r: (Node, Node))
    requires ValidPath(n.CollectionNode?, steps)
    ensures r.0.CollectionNode? == n.CollectionNode?
    ensures |steps| == 0 ==> r == (n, n)
    ensures |steps| > 0 ==> r.1.CollectionNode? == steps[|steps| - 1].CollectionStep?
    decreases |steps|
  {
    if |steps| == 0 then (n, n)
    else
      match n
      case DocumentNode(d) =>
        (match steps[0]
         case DocumentStep(t) =>
           var (d1, child) := DocumentChild(d, t);
           var (child', reached) := Walk(DocumentNode(child), steps[1..]);
           (DocumentNode(d1.(documents := d1.documents[t := child'.document])), reached)
         case CollectionStep(t) =>
           var (d1, coll) := CollectionChild(d, t);
           var (coll', reached) := Walk(CollectionNode(coll), steps[1..]);
           (DocumentNode(d1.(collections := d1.collections[t := coll'.collection])), reached))
      case CollectionNode(c) =>
        var t := steps[0].tag;
        var (c1, child) := CollectionDocument(c, t);
        var (child', reached) := Walk(DocumentNode(child), steps[1..]);
        (CollectionNode(Collection(c1.documents[t := child'.document])), reached)
  }

  /** Walking the same steps a second time changes nothing and reaches the
      same node: lookups by OID are idempotent. */
  lemma {:induction false} WalkIdempotent(n: Node, steps: seq<Step>)
    requires ValidPath(n.CollectionNode?, steps)
    ensures Walk(Walk(n, steps).0, steps) == Walk(n, steps)
    decreases |steps|
  {
    if |steps| > 0 {
      match n
      case DocumentNode(d) => {
        match steps[0]
        case DocumentStep(t) =>
          var child := DocumentChild(d, t).1;
          WalkIdempotent(DocumentNode(child), steps[1..]);
        case CollectionStep(t) =>
          var coll := CollectionChild(d, t).1;
          WalkIdempotent(CollectionNode(coll), steps[1..]);
      }
      case CollectionNode(c) =>
        var child := CollectionDocument(c, steps[0].tag).1;
        WalkIdempotent(DocumentNode(child), steps[1..]);
    }
  }

  /** A walk only ever adds: every tag bound at the starting node stays bound. */
  lemma WalkKeepsTags(n: Node, steps: seq<Step>)
    requires ValidPath(n.CollectionNode?, steps)
    ensures n.DocumentNode? ==>
      var d1 := Walk(n, steps).0.document;
      n.document.documents.Keys <= d1.documents.Keys && n.document.collections.Keys <= d1.collections.Keys
      && d1.attributes == n.document.attributes
    ensures n.CollectionNode? ==> n.collection.documents.Keys <= Walk(n, steps).0.collection.documents.Keys
  {
  }

  // ------------------------------------------------------------ the lookups

  /** `STCollection.document(RelativeOid)` on collection `c`: the updated
      collection and the document found (or the exception). */
  function CollectionDocumentByOid(s: Schema, c: Collection, oid: Oid): (r: (Collection, Result<Document>))
    ensures r.1.Ok? <==> CollectionRoute(s, oid).outcome.Ok?
    ensures r.1.Err? ==> r.1.error == CollectionRoute(s, oid).outcome.error
    ensures !IsConcrete(oid) || !HasDocumentSuffix(s, First(oid)) ==> r.0 == c && r.1.Err?
    ensures c.documents.Keys <= r.0.documents.Keys
    ensures r.1.Ok? ==> First(oid) in r.0.documents
  {
    var route := CollectionRoute(s, oid);
    var (c1, reached) := Walk(CollectionNode(c), route.steps);
    WalkKeepsTags(CollectionNode(c), route.steps);
    (c1.collection, match route.outcome case Ok(_) => Ok(reached.document) case Err(e) => Err(e))
  }

  /** `STDocumentContainer.document(RelativeOid)` on document `d`, which is
      also a collection container. */
  function ContainerDocumentByOid(s: Schema, d: Document, oid: Oid): (r: (Document, Result<Document>))
    ensures r.1.Ok? <==> ContainerRoute(s, true, oid).outcome.Ok?
    ensures r.1.Err? ==> r.1.error == ContainerRoute(s, true, oid).outcome.error
    ensures !IsConcrete(oid) ==> r == (d, Err(GenericOidException))
    ensures IsConcrete(oid) && |oid.value| == 1 ==> (r.1.Ok? <==> s.oidType(First(oid)) == OtypeDocument)
    ensures d.documents.Keys <= r.0.documents.Keys && d.collections.Keys <= r.0.collections.Keys
    ensures r.0.attributes == d.attributes
    ensures r.1.Ok? ==> First(oid) in r.0.documents || First(oid) in r.0.collections
  {
    var route := ContainerRoute(s, true, oid);
    var (d1, reached) := Walk(DocumentNode(d), route.steps);
    WalkKeepsTags(DocumentNode(d), route.steps);
    (d1.document, match route.outcome case Ok(_) => Ok(reached.document) case Err(e) => Err(e))
  }

  /** `STDocumentContainer.get(oid)`, which calls `document(oid)`: a
      non-concrete OID throws and changes nothing. */
  function ContainerGet(s: Schema, d: Document, oid: Oid): (r: (Document, Result<Document>))
    ensures r == ContainerDocumentByOid(s, d, oid)
    ensures !IsConcrete(oid) ==> r == (d, Err(GenericOidException))
  {
    ContainerDocumentByOid(s, d, oid)
  }

  /** For a one-component OID with the document suffix, the lookup is
      `document(first)`. */
  lemma CollectionDocumentSingle(s: Schema, c: Collection, oid: Oid)
    requires IsConcrete(oid) && HasDocumentSuffix(s, First(oid)) && |oid.value| == 1
    ensures var (c1, child) := CollectionDocument(c, First(oid));
      CollectionDocumentByOid(s, c, oid) == (c1, Ok(child))
  {
    var route := CollectionRoute(s, oid);
    var t := First(oid);
    assert route.steps == [DocumentStep(t)];
    assert route.steps[1..] == [];
    var (c1, child) := CollectionDocument(c, t);
    assert Walk(DocumentNode(child), []) == (DocumentNode(child), DocumentNode(child));
    assert c1.documents[t := child] == c1.documents;
  }

  /** For a longer OID with the document suffix, the lookup is
      `document(first).document(tail)`, with the child stored back. */
  lemma CollectionDocumentRecursion(s: Schema, c: Collection, oid: Oid)
    requires IsConcrete(oid) && HasDocumentSuffix(s, First(oid)) && |oid.value| > 1
    ensures var (c1, child) := CollectionDocument(c, First(oid));
      var (child1, found) := ContainerDocumentByOid(s, child, Tail(oid).value);
      CollectionDocumentByOid(s, c, oid) == (Collection(c1.documents[First(oid) := child1]), found)
  {
    var route := CollectionRoute(s, oid);
    var rest := ContainerRoute(s, true, Tail(oid).value);
    assert route.steps[1..] == rest.steps;
  }

  /** For a longer OID whose first component is a document, a container
      lookup is `document(first).document(tail)`. */
  lemma ContainerDocumentRecursion(s: Schema, d: Document, oid: Oid)
    requires IsConcrete(oid) && |oid.value| > 1 && s.oidType(First(oid)) == OtypeDocument
    ensures var (d1, child) := DocumentChild(d, First(oid));
      var (child1, found) := ContainerDocumentByOid(s, child, Tail(oid).value);
      ContainerDocumentByOid(s, d, oid) == (d1.(documents := d1.documents[First(oid) := child1]), found)
  {
    var route := ContainerRoute(s, true, oid);
    var rest := ContainerRoute(s, true, Tail(oid).value);
    assert route.steps[1..] == rest.steps;
  }

  /** For a longer OID whose first component is a collection, a document
      (which is a collection container) looks up `collection(first)` and
      continues there with the tail. */
  lemma ContainerCollectionRecursion(s: Schema, d: Document, oid: Oid)
    requires IsConcrete(oid) && |oid.value| > 1 && s.oidType(First(oid)) == OtypeCollection
    ensures var (d1, coll) := CollectionChild(d, First(oid));
      var (coll1, found) := CollectionDocumentByOid(s, coll, Tail(oid).value);
      ContainerDocumentByOid(s, d, oid) == (d1.(collections := d1.collections[First(oid) := coll1]), found)
  {
    var route := ContainerRoute(s, true, oid);
    var rest := CollectionRoute(s, Tail(oid).value);
    assert route.steps[1..] == rest.steps;
  }

  /** A container that is not a collection container refuses a collection
      component, and creates nothing. */
  lemma PlainContainerRefusesCollection(s: Schema, oid: Oid)
    requires IsConcrete(oid) && |oid.value| > 1 && s.oidType(First(oid)) == OtypeCollection
    ensures ContainerRoute(s, false, oid) == Route([], Err(IllegalArgumentException("OID")))
  {
  }

  /** A document lookup by OID never yields null: on success the document is
      found, and looking it up again changes nothing. */
  lemma CollectionDocumentByOidIdempotent(s: Schema, c: Collection, oid: Oid)
    ensures var (c1, found) := CollectionDocumentByOid(s, c, oid);
      CollectionDocumentByOid(s, c1, oid) == (c1, found)
  {
    WalkIdempotent(CollectionNode(c), CollectionRoute(s, oid).steps);
  }

  /** A successful lookup visits exactly the OID's components, in order. */
  lemma SuccessfulRouteVisitsEveryComponent(s: Schema, oid: Oid)
    ensures CollectionRoute(s, oid).outcome.Ok? ==> StepTags(CollectionRoute(s, oid).steps) == oid.value
    ensures ContainerRoute(s, true, oid).outcome.Ok? ==> StepTags(ContainerRoute(s, true, oid).steps) == oid.value
  {
  }
}

=== FILE: user.dfy ===
/** A user account on the server (`User`): merging a protobuf delta into the
    account, extracting the account as a protobuf message, and building a
    new account from a configuration. Configuration validation belongs to
    `ValidationUtil`, which is not part of this model, so it is a parameter. */
module Users {
  import opened Common
  import opened ProtoUtil

  /** `UserConfig`: every field may be absent (`has...` is false). */
  datatype UserConfig = UserConfig(username: Option<string>, email: Option<string>, expiration: Option<int>)

  /** The default instance `getConfig()` returns when no config is set. */
  const DefaultConfig: UserConfig := UserConfig(None, None, None)

  /** `UserStats`: only the creation time is modelled. */
  datatype UserStats = UserStats(ctime: Option<int>)

  /** `ProtoUser`: an optional config and optional statistics. */
  datatype ProtoUser = ProtoUser(config: Option<UserConfig>, stats: Option<UserStats>)

  /** The account's fields; a Java `null` is `None`, and the numeric fields
      start at zero. */
  datatype User = User(
    id: int,
    username: Option<string>,
    email: Option<string>,
    hash: Option<string>,
    creation: int,
    expiration: int,
    cvid: int)

  /** A freshly allocated account, before any field is set. */
  const Blank: User := User(0, None, None, None, 0, 0, 0)

  /** `delta.getConfig()`: the config, or the default instance. */
  function ConfigOf(delta: ProtoUser): (r: UserConfig)
    ensures delta.config.Some? ==> r == delta.config.value
    ensures delta.config.None? ==> r == DefaultConfig
  {
    delta.config.GetOr(DefaultConfig)
  }

  /** `merge(delta)`: the validation code is returned unchanged, and nothing
      is touched, unless it is `NONE`; otherwise the email, the expiration
      and the creation time present in the delta replace the account's. */
  function Merge(validConfig: UserConfig -> ErrorCode, u: User, delta: ProtoUser): (r: (User, ErrorCode))
    ensures validConfig(ConfigOf(delta)) != NONE ==> r == (u, validConfig(ConfigOf(delta)))
    ensures validConfig(ConfigOf(delta)) == NONE ==> r.1 == NONE
    ensures r.0.id == u.id && r.0.username == u.username && r.0.hash == u.hash && r.0.cvid == u.cvid
    ensures r.0.email == (if r.1 == NONE && delta.config.Some? && delta.config.value.email.Some?
                          then delta.config.value.email else u.email)
    ensures r.0.expiration == (if r.1 == NONE && delta.config.Some? && delta.config.value.expiration.Some?
                               then delta.config.value.expiration.value else u.expiration)
    ensures r.0.creation == (if r.1 == NONE && delta.stats.Some? && delta.stats.value.ctime.Some?
                             then delta.stats.value.ctime.value else u.creation)
  {
    var validity := validConfig(ConfigOf(delta));
    if validity != NONE then (u, validity)
    else
      var u := match delta.config
        case None => u
        case Some(c) =>
          var u := if c.email.Some? then u.(email := c.email) else u;
          if c.expiration.Some? then u.(expiration := c.expiration.value) else u;
      var u := match delta.stats
        case None => u
        case Some(s) => if s.ctime.Some? then u.(creation := s.ctime.value) else u;
      (u, NONE)
  }

  /** `extract()`: the protobuf setters refuse a null username or email. */
  function Extract(u: User): (r: Result<ProtoUser>)
    ensures r.Err? <==> u.username.None? || u.email.None?
    ensures r.Err? ==> r.error == NullPointerException
    ensures r.Ok? ==> r.value.config == Some(UserConfig(u.username, u.email, Some(u.expiration)))
    ensures r.Ok? ==> r.value.stats == Some(UserStats(Some(u.creation)))
  {
    if u.username.None? || u.email.None? then Err(NullPointerException)
    else Ok(ProtoUser(Some(UserConfig(u.username, u.email, Some(u.expiration))), Some(UserStats(Some(u.creation)))))
  }

  /** `new User(config)`: a null config is refused by the builder, and a
      merge that does not report `NONE` makes the constructor throw. */
  function NewUser(validConfig: UserConfig -> ErrorCode, config: Option<UserConfig>): (r: Result<User>)
    ensures config.None? ==> r == Err(NullPointerException)
    ensures config.Some? ==> (r.Ok? <==> validConfig(config.value) == NONE)
    ensures config.Some? && r.Err? ==> r.error.IllegalArgumentException?
  {
    match config
    case None => Err(NullPointerException)
    case Some(c) =>
      var (u, code) := Merge(validConfig, Blank, ProtoUser(Some(c), None));
      if code != NONE then Err(IllegalArgumentException("")) else Ok(u)
  }

  /** A new account takes the configured email and expiration and nothing
      else: the username given in the configuration is not copied, and no
      password hash is set. */
  lemma NewUserTakesEmailAndExpiration(validConfig: UserConfig -> ErrorCode, c: UserConfig)
    requires validConfig(c) == NONE
    ensures NewUser(validConfig, Some(c)).Ok?
    ensures var u := NewUser(validConfig, Some(c)).value;
      u.email == c.email && u.expiration == c.expiration.GetOr(0)
      && u.username.None? && u.hash.None? && u.creation == 0 && u.id == 0
  {
  }

  /** Extracting and merging back is a round trip: merging an account's
      own extraction into any account with the same identity, when the
      extracted configuration validates, yields the account itself. */
  lemma MergeOfExtract(validConfig: UserConfig -> ErrorCode, u: User, v: User)
    requires Extract(u).Ok? && validConfig(Extract(u).value.config.value) == NONE
    requires v.id == u.id && v.username == u.username && v.hash == u.hash && v.cvid == u.cvid
    ensures Merge(validConfig, v, Extract(u).value) == (u, NONE)
  {
  }

  /** Merging is idempotent: applying the same accepted delta twice has
      the effect of applying it once. */
  lemma MergeIdempotent(validConfig: UserConfig -> ErrorCode, u: User, delta: ProtoUser)
    requires validConfig(ConfigOf(delta)) == NONE
    ensures var once := Merge(validConfig, u, delta).0;
      Merge(validConfig, once, delta) == (once, NONE)
  {
  }
}
